=== FILE: README.md ===
# confshelf link management in Dafny

confshelf keeps configuration files ("dotfiles") in one repository under
`$HOME/.confshelf/repo/` and puts symbolic links where the files used to be.
This project models the link-management core of its two implementations and
proves properties of the model.

- **confshelf.c** (the C implementation):
  - path building from `HOME`;
  - the two mutating commands `manage` and `link`, and the append-only
    manifest `known_links.toml` they write;
  - the bootstrap `main` runs before every command;
  - command dispatch.
- **src/main.rs** (the Rust rewrite):
  - `create_link`, a guarded "create or replace symbolic link";
  - its error type and the error texts;
  - the yes/no classifier of `ask`.

The filesystem is an immutable value, a map from path to node (regular file,
directory or symbolic link). Each operation is a pure function from the old
state to an outcome and a new state.

Two kinds of query are kept apart:
- `stat`, `Path::exists` and `S_ISREG` follow symbolic links, for at most 40
  hops (Linux's MAXSYMLINKS), so a dangling or looping link "does not exist".
- `lstat` and `fs::symlink_metadata` do not follow links.

Mutations follow Linux, whose errno numbers the model uses: `rename`, `symlink`, `unlink`, `mkdir` and
`fopen(..., "w")`. The state decides the errors it can decide (EEXIST, EISDIR,
ENOENT, ELOOP). A fault parameter supplies every other failure, such as
permissions, a full disk, a missing parent directory or a `rename` into a
repository on another mount (EXDEV). Each partial-failure
path of the commands is therefore stated, not just the happy path.

Modules:
- `Options`: the option type.
- `Posix` (posix.dfy): the filesystem and syscalls.
- `Paths`: path building.
- `Injected`: the faults of one C run.
- `Manifest`: `known_links.toml`, with a reader that is proved to invert the
  writer.
- `Bootstrap`: `init_app_dir`, `init_config_file`, `init_files` and the
  default configuration text.
- `Commands`: `manage` and `cmd_link`.
- `Dispatch`: `conv_cmd_str_id` and `main`.
- `LinkError`: `LinkCreationError` and its `Display`.
- `LinkCreation`: `create_link` and the Rust unit tests as lemmas.
- `Answers`: `Answer` and the classifier of `ask`.

Three behaviours of the code are easy to misread, and the model keeps them
as the code has them:
- An existence check follows symbolic links, so a dangling link counts as
  absent. It does not count as "an entry, link or otherwise".
- Manifest write errors and the manifest's `fclose` result are not checked,
  so a short write to `known_links.toml` still reports success.
  `Injected.Accepted` models how much of the line reaches the file.
- Bootstrap creates the application directory and `config.toml`. It does not
  create the repository directory: `setup` (libgit2) creates it.

## Model

| member | source | states |
|---|---|---|
| Paths.AppDir | confshelf.c:23-42 | `None` exactly when `HOME` is unset. Otherwise the path is `HOME` + "/.confshelf/" + suffix: its length is the sum of the three lengths, and stripping the application prefix gives back the suffix. |
| Paths.PathInRepo | confshelf.c:51-64 | The repository path of a name is the application path with suffix "repo/" + name. `HOME` must be set, because the C code dereferences the NULL repository path otherwise. |
| Paths.RepoDirPath | confshelf.c:45-49 | `None` exactly when `HOME` is unset; otherwise `HOME` followed by "/.confshelf/repo/". |
| Paths.ConfigPath | confshelf.c:66-69 | `None` exactly when `HOME` is unset; otherwise `HOME` followed by "/.confshelf/config.toml". |
| Paths.KnownLinksPath | confshelf.c:70-73 | `None` exactly when `HOME` is unset; otherwise `HOME` followed by "/.confshelf/known_links.toml". |
| Paths.AppDirInjective | confshelf.c:23-42 | Different suffixes give different application paths. |
| Paths.RepoPathsDistinct | confshelf.c:45-64 | Two different repository names never share a path. |
| Paths.RepoPathIsNotBookkeeping | confshelf.c:45-73 | No repository member path equals the manifest path or the configuration path. |
| Paths.ExampleRepoPath | confshelf.c:45-64 | With HOME=/home/u, the member "vimrc" is at /home/u/.confshelf/repo/vimrc. |
| Paths.ExampleKnownLinksPath | confshelf.c:70-73 | With HOME=/home/u, the manifest is /home/u/.confshelf/known_links.toml. |
| Posix.Follow | confshelf.c:125-129 | Resolution ends at a path that is absent or is not a link. A path that is not a link resolves to itself. |
| Posix.Stat | confshelf.c:131-141 | The followed status is never a link. It is absent for a missing path, and it is the node itself for a path that is not a link. |
| Posix.PathExists | confshelf.c:125-129 | Existence implies an entry; every entry that is not a link exists; a link to a missing path does not exist. |
| Posix.SelfLinkDoesNotExist | confshelf.c:125-129 | A link to itself does not exist for stat (ELOOP), although lstat still sees the link. |
| Posix.IsRegularFile | confshelf.c:131-141 | A regular file exists; an entry that is itself a regular file is one, and a directory is not. |
| Posix.Lstat | src/main.rs:164-173 | The unfollowed status is the entry itself. It agrees with the followed status on every entry that is not a link, and it sees every path the followed status sees. |
| Posix.Rename | confshelf.c:201-208 | Succeeds exactly when the source exists and either source equals destination, or there is no fault and no directory is involved in a replacement. On success with distinct paths the node moves, the source disappears and nothing else changes. |
| Posix.MakeSymlink | confshelf.c:209-216 | Any entry at the link path (a dangling link included) gives EEXIST. Success happens exactly when the path is free and there is no fault, and it adds only the link. |
| Posix.Unlink | src/main.rs:176-181 | A missing path gives ENOENT and a directory gives EISDIR. Success removes exactly that entry. |
| Posix.Mkdir | confshelf.c:368-375 | Any existing entry gives EEXIST. Success adds only the new directory. |
| Posix.CreateFile | confshelf.c:336-343 | Succeeds exactly when there is no fault, the chain resolves within 40 hops (else ELOOP) and does not end at a directory. Writes the content at the end of the path's link chain. The followed status of the path then reads back that content, and nothing else changes. |
| Posix.NewLinkResolves | confshelf.c:268-275 | A new link to a path that resolves with one hop to spare reads the same node as that path. |
| Injected.Accepted | confshelf.c:350 | What a stream that fails mid-write leaves in the file is a prefix of the text. It is the whole text exactly when the write is not cut short. |
| Manifest.Parse | confshelf.c:162 | Whatever the reader accepts renders back to the very same text, and every entry it yields needs no escape. |
| Manifest.ParseLineOfEntry | confshelf.c:162 | The reader reads the line `fprintf` writes for an entry back as that entry, whatever text follows. |
| Manifest.ParseRender | confshelf.c:162 | Rendering entries that need no escape and reading them back gives the same entries (round trip). |
| Manifest.AppendEntry | confshelf.c:157-162 | Appending one written line to a readable manifest adds exactly that entry at the end and keeps the earlier ones. |
| Manifest.EntryLineIsOneLine | confshelf.c:162 | A written line holds exactly one newline when its strings hold none. |
| Manifest.UnescapedQuoteCollides | confshelf.c:162 | Because nothing is escaped, two different entries can write the same line. |
| Manifest.InsertKnownLinks | confshelf.c:144-171 | Returns 0 exactly when `HOME` is set and fopen succeeds. On failure the manifest is unchanged. On success the written line is appended (a prefix of it after a write error, still with result 0). The old text is always a prefix of the new. |
| Manifest.InsertKnownLinksRecords | confshelf.c:144-171 | A successful, complete append makes the pair the newest entry of the manifest. |
| Manifest.ExampleLine | confshelf.c:162 | The line for /home/u/.vimrc and vimrc is `"/home/u/.vimrc" = "vimrc"` plus a newline. |
| Bootstrap.InitAppDir | confshelf.c:365-378 | Returns 0 exactly when `HOME` is set and either an entry already exists at the application path (EEXIST counts as success) or mkdir has no fault. An existing entry means nothing changes, and so does a result of 1. Otherwise the only change is the new directory. |
| Bootstrap.InitConfigFile | confshelf.c:314-363 | An existing regular file gives 0 with no change. An existing entry of another kind gives 1 with no change. With `HOME` unset, or when fopen fails (a looping link included), the result is 1 and nothing is created. Otherwise the literal `initial_conf`, exactly as written, goes to the end of the path's link chain, and no other entry changes. A write error that cuts it short, or any other fclose error, gives 1 although the file (or its prefix) was written. Result 0 implies a regular file at the configuration path, and a file created with result 0 holds the whole text. When fopen succeeds the file always exists afterwards, holding the part of the text the write accepted. |
| Bootstrap.InitFiles | confshelf.c:380-386 | Both steps run, the second on what the first left. The result is 0 exactly when both succeed, and then the application directory and a regular configuration file exist. |
| Bootstrap.ConfigStepKeepsAppDir | confshelf.c:380-386 | The configuration step never removes the directory the first step made. |
| Bootstrap.InitFilesIdempotent | confshelf.c:314-386 | After a successful bootstrap, a second one succeeds under any faults and changes nothing. |
| Bootstrap.DefaultConfigAsWrittenIsNotToml | confshelf.c:344-349 | The fourth line of the literal as written ("An absolute path...") is neither blank, a comment nor an assignment. |
| Bootstrap.DefaultConfigIsToml | confshelf.c:344-349 | Every line of the corrected default text is a comment or a string assignment. |
| Bootstrap.DefaultConfigVersion | confshelf.c:346 | The default text sets `config_version` to "1". |
| Bootstrap.DefaultConfigRepositoryPath | confshelf.c:349 | The default text sets `repository_path` to "". |
| Commands.Manage | confshelf.c:173-233 | The checks run in order: fewer than 4 arguments, missing source, source not a regular file, repository path taken. Each check returns 1 and changes nothing, and no state change happens unless all of them pass. Partial failures are not rolled back: a failed rename changes nothing, a failed symlink leaves the file moved, and a failed manifest append leaves the link in place. Once the checks pass, a rename fault gives the move failure with its errno and no change, a symlink fault the symlink failure with its errno, and an fopen fault the manifest failure. Success leaves the source a link to the repository path, which holds the old node, and the manifest gains the line for (source, bare name). A result of 1 leaves the manifest as it was. |
| Commands.ManageSucceedsIff | confshelf.c:173-233 | `manage` returns 0 exactly when its checks pass and rename, symlink and the manifest fopen all succeed. |
| Commands.ManageKeepsContent | confshelf.c:200-216 | No data is lost: after the move, and again after the link, both paths read back the original file content. |
| Commands.ManageTwiceConflicts | confshelf.c:195-200 | Repeating a successful `manage` fails with "already exists" and changes nothing. |
| Commands.ManageRecordsOneEntry | confshelf.c:184-221 | With the checks passed and no syscall failing, `manage` succeeds and adds exactly one entry to a readable manifest: the source path and the bare name. |
| Commands.CmdLink | confshelf.c:239-289 | Checks run in the same order and change nothing. Once they pass, an entry left at the link path (a dangling link) gives the symlink failure with EEXIST, a symlink fault the symlink failure with its errno, and an fopen fault the manifest failure. A failed symlink changes nothing, and a failed manifest append leaves the link in place. Success adds only the link to the repository member and the manifest line for (link path, bare name). A result of 1 leaves the manifest as it was. |
| Commands.CmdLinkSucceedsIff | confshelf.c:239-289 | `link` returns 0 exactly when its checks pass, no entry at all (not even a dangling link) sits at the link path, and symlink and fopen succeed. |
| Commands.CmdLinkRecordsOneEntry | confshelf.c:249-284 | With the checks passed, the link path free and no syscall failing, `link` succeeds and adds exactly one entry to a readable manifest: the link path and the bare name. |
| Commands.CmdLinkOverDanglingLink | confshelf.c:262-275 | A dangling link at the link path passes the existence check, then symlink fails with EEXIST, and nothing changes. |
| Commands.CmdLinkResolvesToMember | confshelf.c:268-284 | After success the new link reads what the repository member reads, and the member is untouched. |
| Dispatch.ConvCmdStrId | confshelf.c:300-312 | -1 exactly for a word that is not one of the eight command names. Otherwise the k-th name of the flag table maps to flag 1<<k. |
| Dispatch.BitIncreasing | confshelf.c:13-20 | Flags with larger shifts are strictly larger. |
| Dispatch.CommandIdRoundTrip | confshelf.c:300-312 | Mapping a command name to its flag and back gives the name; an unknown word gives nothing. |
| Dispatch.CommandIdsDistinct | confshelf.c:13-20 | The eight command flags are pairwise distinct. |
| Dispatch.Main | confshelf.c:388-416 | Fewer than 2 arguments or `help` returns 0 without bootstrap. A failed bootstrap returns 1. Only setup, manage and link are dispatched, and every other word returns 1. Result 0 means help, setup or a successful command. The manifest only grows. |
| Dispatch.RunCommand | confshelf.c:400-415 | After bootstrap: exactly the words other than setup, manage and link are unknown and give 1; setup gives 0; result 0 means setup or a successful command; the manifest only grows. |
| Dispatch.StubCommandsRejected | confshelf.c:400-414 | pull, push, commit, unmanage and status have flags but are rejected like unknown words. |
| Dispatch.MainRunsManage | confshelf.c:395-407 | `main manage ...` after a successful bootstrap is `manage` on the bootstrapped filesystem, with `HOME` known to be set. |
| Dispatch.MainSuccessRecords | confshelf.c:406-409 | Without faults, a successful `manage` or `link` through `main` appends exactly its manifest line. |
| LinkError.KindName | src/main.rs:144 | The `io::ErrorKind` name of an errno is non-empty and holds neither a space nor a colon. |
| LinkError.DecimalRoundTrip | src/main.rs:146 | The decimal text of the OS error code reads back as that code. |
| LinkError.Display | src/main.rs:131-153 | Exactly the I/O errors print with the "IO error: " prefix, and their message follows it. |
| LinkError.ParseDisplay | src/main.rs:131-153 | Whatever error the reader recovers from a text displays as exactly that text. |
| LinkError.DisplayRoundTrip | src/main.rs:131-153 | Every error whose message holds no colon is recovered from its display text, so no two such errors print alike. |
| LinkError.DisplayTexts | src/main.rs:133-142 | The three fixed texts are "Target file not exists", "Symlink path is a directory" and "Symlink path is not either directory or symbolic link". |
| LinkError.DisplayAlreadyExists | src/main.rs:143-150 | A symlink call that finds its path taken prints "IO error: Failed to create symlink: AlreadyExists (OS error: 17)". |
| LinkCreation.CreateLink | src/main.rs:155-188 | A missing or dangling target gives `TargetNotExists` first. Without force, a directory gives `SymlinkPathIsDir` and a non-link gives `SymlinkPathIsNotDirOrSymlink`, both with no change. No error but an I/O error changes anything. An entry the checks let through is removed first: a directory gives the removal error with EISDIR, a removal fault the removal error with its errno, and neither changes anything. With the path cleared, a symlink fault gives the creation error with its errno and leaves the old entry removed. Success installs the link and changes nothing else. |
| LinkCreation.CreateLinkOkIff | src/main.rs:155-188 | Succeeds exactly when the target resolves, symlink has no fault, and the symlink path is either free of any entry or holds a removable entry the type checks admit. |
| LinkCreation.CreateLinkKeepsTarget | src/main.rs:176-187 | Success leaves the path a link to the target and the target's own entry unchanged. |
| LinkCreation.DanglingSymlinkPathFails | src/main.rs:163-186 | A dangling link at the symlink path is neither checked nor removed. Creation fails with EEXIST and nothing changes. |
| LinkCreation.ForceReplacesFile | src/main.rs:163-187 | With `force`, a regular file at the symlink path is replaced by the link. |
| LinkCreation.ForceOverDirectoryFails | src/main.rs:176-181 | With `force`, a directory at the symlink path cannot be removed: an I/O error with EISDIR, and nothing changes. |
| LinkCreation.TestNewSymlink | src/main.rs:291-303 | A fresh path becomes a link to the regular file. |
| LinkCreation.TestReplaceSymlink | src/main.rs:305-319 | An existing link is pointed at the new target. |
| LinkCreation.TestTargetNotExists | src/main.rs:321-331 | A missing target displays "Target file not exists". |
| LinkCreation.TestSymlinkIsDir | src/main.rs:333-345 | A directory at the symlink path displays "Symlink path is a directory". |
| LinkCreation.TestSymlinkIsRegularFile | src/main.rs:347-359 | A regular file at the symlink path displays the "not either directory or symbolic link" text. |
| Answers.Lower | src/main.rs:108 | Lower-casing keeps the length, leaves no capital letter, and keeps white space where it was. |
| Answers.LowerIdempotent | src/main.rs:108 | Lower-casing twice is lower-casing once. |
| Answers.TrimLower | src/main.rs:108-109 | Trimming and lower-casing commute. |
| Answers.Trim | src/main.rs:109 | The line is leading white space, the result, then trailing white space; the result neither starts nor ends with white space, and it is empty exactly when the line is all white space. |
| Answers.Classify | src/main.rs:108-114 | Yes exactly when the trimmed line is "y" or "yes" in any mix of cases. |
| Answers.YesWordBounds | src/main.rs:108-114 | A yes answer is a case-insensitive "y" or "yes" with only white space around it: the bounds of that word in the line. |
| Answers.ClassifyOfSplit | src/main.rs:108-114 | Every such line is a yes answer, the converse direction. |
| Answers.ClassifyYesExamples | src/main.rs:100-115 | "y" and "  YES " (with the newline `read_line` keeps) are yes. |
| Answers.ClassifyEmptyIsNo | src/main.rs:100-115 | An empty reply is no, the default the prompt shows as [y/N]. |
| Answers.ClassifyOtherIsNo | src/main.rs:108-114 | "yeah" and "y es" are no. |

## Left out

- `setup` (confshelf.c:86-111) drives libgit2. `Dispatch.Main` takes its effect on the filesystem as a parameter `gitInit`.
- The empty stubs `pull`, `push`, `commit`, `unmanage` and `status` have no behaviour. `main` never calls them.
- The usage text, the "Success!"/"Failed" lines, the stdout-versus-stderr choice and the errno text of each message are not modelled. `Commands.Report` names which message is printed.
- calloc failure in the path builders is not modelled: allocation always succeeds.
- `is_file` exits when stat fails. In a sequential model this cannot happen right after `path_exists` succeeds.
- The `fs::symlink_metadata` failure (src/main.rs:164-167) is left out for the same reason: `exists()` has just succeeded.
- Races between processes are not modelled. The model is sequential, with no other process touching the files between calls.
- Paths are opaque strings: no normalisation, no relative link targets and no parent directories.
  - A missing parent directory reaches the model only as an injected fault (ENOENT).
  - Directories have no listed contents, so `Mkdir` and `Rename` do not check them.
- `known_links.toml` is kept as its own string beside the filesystem, not as a file inside the map. The model assumes no other program writes it.
  - So a `manage` or `link` whose path is `known_links.toml` itself (or a link that resolves to it) differs from the C: there the rename or the new link moves or aliases the manifest file, and the appended line lands wherever the path then resolves; in the model the manifest string is untouched by the filesystem step.
- Its fclose result is ignored by the C code and has no effect in the model.
- Parts of src/main.rs are left out:
  - `Recipe::load` and its TOML deserialisation;
  - the setup script and its exit status;
  - `selfupdate` (`todo!()`);
  - `version`, `help` and Rust's `main`.
  These are I/O and library wrappers.
- The interactive retry queue of the Rust `setup` (src/main.rs:48-71) is left out, because it reads standard input. It retries with `create_link(link, false)`, so a yes answer re-prompts against an unchanged filesystem.
- Answers.Classify: characters are ASCII. `Answers.Lower` maps only 'A'..'Z', and white space is only the ASCII white space of `char::is_whitespace`. The decision agrees with `ask` on lines whose white space is ASCII, since no other character lower-cases to 'y', 'e' or 's'. It differs on non-ASCII white space: `ask` trims U+00A0 or U+3000 and answers yes to "yes" followed by U+00A0, where the model answers no.
- Manifest.ParseRender: the round trip is stated only for entries whose strings need no TOML escape. The writer escapes nothing, so other entries can collide (`Manifest.UnescapedQuoteCollides`).
- LinkError.DisplayRoundTrip: stated only for messages without a colon, which all three messages of `create_link` satisfy.
- Commands.CmdLinkResolvesToMember: requires the member to resolve within 39 hops rather than 40, since the new link uses one.
- Commands.ManageKeepsContent: stated for a source that is a regular file itself. For a link to a regular file, the link is what moves.
- Commands.ManageTwiceConflicts: stated for a source that is a regular file itself, like `ManageKeepsContent`. For a link to a regular file, the second run first has to resolve a chain one hop longer, which may exceed the 40-hop limit and then fail with "does not exist" instead.
- Commands.Manage: requires `HOME` to be set once 4 arguments are given, since the C code dereferences a NULL path otherwise. `main` only calls it after a bootstrap that has checked `HOME`.

## Findings

| source | as written | input that shows it | evidently intended | confidence | as-written member | corrected member |
|---|---|---|---|---|---|---|
| confshelf.c:344-349 | The lines "An absolute path to a repository." and "The path doesn't have to be a git repository." of the default `config.toml` have no `#`. | Any first run: `init_config_file` with no `config.toml` writes a file whose fourth line is "An absolute path to a repository.". That line is not valid TOML (a bare key `An` followed by `a`). | Both lines are comments, like the two lines above them, so the file parses as TOML. | high; not executed | Bootstrap.DefaultConfigAsWrittenIsNotToml | Bootstrap.DefaultConfigIsToml |

`Bootstrap.InitConfigFile` writes the text as the code has it
(`Bootstrap.DefaultConfigAsWritten`). The corrected text is
`Bootstrap.DefaultConfig`, and `Bootstrap.DefaultConfigIsToml` is proved of it.

=== FILE: ask.dfy ===
/**
  The answer classifier inside `ask` of src/main.rs: the line read from
  standard input is lower-cased, trimmed of white space at both ends, and
  read as yes only when what is left is "y" or "yes". Characters are taken as
  ASCII: lower-casing maps only 'A'..'Z', and white space is the ASCII set of
  `char::is_whitespace`.
*/
module Answers {
  datatype Answer = Yes | No

  predicate IsSpace(c: char)
  {
    c == ' ' || c == '\t' || c == '\n' || c == '\r' || c as int == 0x0B || c as int == 0x0C
  }

  predicate AllSpace(s: string)
  {
    forall i :: 0 <= i < |s| ==> IsSpace(s[i])
  }

  predicate IsUpper(c: char)
  {
    'A' <= c <= 'Z'
  }

  function LowerChar(c: char): (d: char)
    ensures IsSpace(d) <==> IsSpace(c)
    ensures !IsUpper(d)
    ensures !IsUpper(c) ==> d == c
  {
    if IsUpper(c) then (c as int + 32) as char else c
  }

  /** `str::to_lowercase`, character by character. */
  function Lower(s: string): (r: string)
    ensures |r| == |s|
    ensures forall i :: 0 <= i < |s| ==> r[i] == LowerChar(s[i])
    // no capital letter survives, and white space stays where it was
    ensures forall i :: 0 <= i < |r| ==> !IsUpper(r[i])
    ensures forall i :: 0 <= i < |r| ==> (IsSpace(r[i]) <==> IsSpace(s[i]))
  {
    seq(|s|, i requires 0 <= i < |s| => LowerChar(s[i]))
  }

  /** Lower-casing twice is lower-casing once. */
  lemma LowerIdempotent(s: string)
    ensures Lower(Lower(s)) == Lower(s)
  {
    var l := Lower(s);
    forall i | 0 <= i < |l| ensures Lower(l)[i] == l[i] {
      assert !IsUpper(l[i]);
    }
  }

  /** Trimming and lower-casing commute, since lower-casing neither makes
      nor removes white space. */
  lemma TrimLower(s: string)
    ensures Trim(Lower(s)) == Lower(Trim(s))
  {
    var l := Lower(s);
    SpanStartSame(s, l, 0);
    SpanEndSame(s, l, |s|);
    var a, e := SpanStart(s, 0), SpanEnd(s, |s|);
    if a < e {
      LowerSlice(s, a, e);
    }
  }

  lemma {:induction false} SpanStartSame(s: string, t: string, i: nat)
    requires |s| == |t| && i <= |s|
    requires forall j :: 0 <= j < |s| ==> (IsSpace(s[j]) <==> IsSpace(t[j]))
    ensures SpanStart(s, i) == SpanStart(t, i)
    decreases |s| - i
  {
    if i < |s| && IsSpace(s[i]) {
      SpanStartSame(s, t, i + 1);
    }
  }

  lemma {:induction false} SpanEndSame(s: string, t: string, j: nat)
    requires |s| == |t| && j <= |s|
    requires forall k :: 0 <= k < |s| ==> (IsSpace(s[k]) <==> IsSpace(t[k]))
    ensures SpanEnd(s, j) == SpanEnd(t, j)
  {
    if j > 0 && IsSpace(s[j - 1]) {
      SpanEndSame(s, t, j - 1);
    }
  }

  /** The first index at or after `i` that holds no white space, or `|s|`. */
  function SpanStart(s: string, i: nat): (k: nat)
    requires i <= |s|
    ensures i <= k <= |s|
    ensures forall j :: i <= j < k ==> IsSpace(s[j])
    ensures k < |s| ==> !IsSpace(s[k])
    decreases |s| - i
  {
    if i == |s| || !IsSpace(s[i]) then i else SpanStart(s, i + 1)
  }

  /** The end of `s[..j]` once its trailing white space is dropped. */
  function SpanEnd(s: string, j: nat): (e: nat)
    requires j <= |s|
    ensures e <= j
    ensures forall k :: e <= k < j ==> IsSpace(s[k])
    ensures e > 0 ==> !IsSpace(s[e - 1])
  {
    if j == 0 || !IsSpace(s[j - 1]) then j else SpanEnd(s, j - 1)
  }

  /** `str::trim`: the text between the leading and the trailing white
      space; empty when there is nothing else. */
  function Trim(s: string): (r: string)
    // the line is leading white space, then the result, then trailing white space
    ensures SpanStart(s, 0) + |r| <= |s|
    ensures AllSpace(s[..SpanStart(s, 0)]) && AllSpace(s[SpanStart(s, 0) + |r|..])
    ensures r == s[SpanStart(s, 0)..SpanStart(s, 0) + |r|]
    // and the result neither starts nor ends with white space
    ensures |r| > 0 ==> !IsSpace(r[0]) && !IsSpace(r[|r| - 1])
    ensures r == [] <==> AllSpace(s)
  {
    var a := SpanStart(s, 0);
    var e := SpanEnd(s, |s|);
    if e <= a then [] else s[a..e]
  }

  /** The decision `ask` makes about the line it read: yes exactly when what
      is left after trimming is "y" or "yes" in any mix of cases. */
  function Classify(line: string): (r: Answer)
    ensures r == Yes <==> IsYesWord(Trim(line))
  {
    TrimLower(line);
    var t := Trim(Lower(line));
    if t == "y" || t == "yes" then Yes else No
  }

  /** "y" or "yes", in any mix of cases. */
  predicate IsYesWord(w: string)
  {
    Lower(w) == "y" || Lower(w) == "yes"
  }

  /** A yes answer is a yes word surrounded by white space only: the bounds
      of that word in the line. */
  function YesWordBounds(line: string): (r: (nat, nat))
    requires Classify(line) == Yes
    ensures r.0 <= r.1 <= |line|
    ensures AllSpace(line[..r.0]) && IsYesWord(line[r.0..r.1]) && AllSpace(line[r.1..])
  {
    var l := Lower(line);
    var a := SpanStart(l, 0);
    var e := SpanEnd(l, |l|);
    assert Trim(l) == "y" || Trim(l) == "yes";
    assert a < e && Trim(l) == l[a..e];
    LowerSlice(line, a, e);
    SpacePrefix(line, a);
    SpaceSuffix(line, e);
    (a, e)
  }

  /** Lower-casing commutes with taking a slice. */
  lemma LowerSlice(s: string, a: nat, e: nat)
    requires a <= e <= |s|
    ensures Lower(s[a..e]) == Lower(s)[a..e]
  {
  }

  lemma SpacePrefix(s: string, a: nat)
    requires a <= |s|
    requires forall j :: 0 <= j < a ==> IsSpace(Lower(s)[j])
    ensures AllSpace(s[..a])
  {
    var l := Lower(s);
    forall i | 0 <= i < a ensures IsSpace(s[..a][i]) {
      assert IsSpace(l[i]);
    }
  }

  lemma SpaceSuffix(s: string, e: nat)
    requires e <= |s|
    requires forall j :: e <= j < |s| ==> IsSpace(Lower(s)[j])
    ensures AllSpace(s[e..])
  {
    var l := Lower(s);
    forall i | 0 <= i < |s| - e ensures IsSpace(s[e..][i]) {
      var k := e + i;
      assert IsSpace(l[k]);
      assert s[e..][i] == s[k];
    }
  }

  /** A yes word surrounded by white space, in any case, is a yes answer. */
  lemma ClassifyOfSplit(pre: string, w: string, post: string)
    requires AllSpace(pre) && AllSpace(post) && IsYesWord(w)
    ensures Classify(pre + w + post) == Yes
  {
    var lw := Lower(w);
    assert lw == "y" || lw == "yes";
    assert Lower(pre + w + post) == Lower(pre) + lw + Lower(post);
    TrimSurrounded(Lower(pre), lw, Lower(post));
  }

  /** Trimming takes away exactly the white space around a word that starts
      and ends with something else. */
  lemma TrimSurrounded(lp: string, lw: string, lq: string)
    requires AllSpace(lp) && AllSpace(lq)
    requires |lw| > 0 && !IsSpace(lw[0]) && !IsSpace(lw[|lw| - 1])
    ensures Trim(lp + lw + lq) == lw
  {
    var l := lp + lw + lq;
    var a, e := |lp|, |lp| + |lw|;
    forall j | 0 <= j < a ensures IsSpace(l[j]) {
      assert l[j] == lp[j];
    }
    assert l[a] == lw[0];
    SpanStartIs(l, 0, a);
    forall k | e <= k < |l| ensures IsSpace(l[k]) {
      assert l[k] == lq[k - e];
    }
    assert l[e - 1] == lw[|lw| - 1];
    SpanEndIs(l, |l|, e);
    assert l[a..e] == lw;
  }

  lemma {:induction false} SpanStartIs(s: string, i: nat, k: nat)
    requires i <= k < |s|
    requires forall j :: i <= j < k ==> IsSpace(s[j])
    requires !IsSpace(s[k])
    ensures SpanStart(s, i) == k
    decreases k - i
  {
    if i < k {
      SpanStartIs(s, i + 1, k);
    }
  }

  lemma {:induction false} SpanEndIs(s: string, j: nat, e: nat)
    requires 0 < e <= j <= |s|
    requires forall k :: e <= k < j ==> IsSpace(s[k])
    requires !IsSpace(s[e - 1])
    ensures SpanEnd(s, j) == e
  {
    if e < j {
      SpanEndIs(s, j - 1, e);
    }
  }

  /** Typical yes replies, with the newline `read_line` keeps. */
  lemma ClassifyYesExamples()
    ensures Classify("y\n") == Yes
    ensures Classify("  YES \n") == Yes
  {
    assert "y\n" == "" + "y" + "\n";
    ClassifyOfSplit("", "y", "\n");
    ClassifyShoutedYes();
  }

  lemma ClassifyShoutedYes()
    ensures Classify("  YES \n") == Yes
  {
    assert "  YES \n" == "  " + "YES" + " \n";
    assert Lower("YES") == "yes";
    ClassifyOfSplit("  ", "YES", " \n");
  }

  /** An empty reply is no, the default the prompt shows as "[y/N]". */
  lemma ClassifyEmptyIsNo()
    ensures Classify("\n") == No
  {
    assert Lower("\n") == "\n";
    assert SpanStart("\n", 0) == 1;
  }

  /** Anything but the two words is no, even when it starts with one. */
  lemma ClassifyOtherIsNo()
    ensures Classify("yeah\n") == No
    ensures Classify("y es\n") == No
  {
    assert Lower("yeah\n") == "yeah\n";
    SpanStartIs("yeah\n", 0, 0);
    SpanEndIs("yeah\n", 5, 4);
    assert Trim("yeah\n") == "yeah";
    assert Lower("y es\n") == "y es\n";
    SpanStartIs("y es\n", 0, 0);
    SpanEndIs("y es\n", 5, 4);
    assert Trim("y es\n") == "y es";
  }
}

=== FILE: bootstrap.dfy ===
/**
  Bootstrap in confshelf.c: `init_app_dir`, `init_config_file` and
  `init_files`, which `main` runs before every command except `help`.
*/
module Bootstrap {
  import opened Options
  import opened Posix
  import opened Paths
  import opened Injected
  import Manifest

  datatype BootResult = BootResult(code: int, fs: FileSystem)

  /** The path `init_app_dir` creates: `get_app_dir("")`, with its trailing slash. */
  function AppDirPath(env: Env): Path
    requires HomeSet(env)
  {
    AppDir(env, "").value
  }

  /** `init_app_dir`. With `HOME` unset `get_app_dir` gives `NULL`, and
      `mkdir(NULL, ...)` fails (EFAULT), which is not EEXIST: the result is 1.
      EEXIST counts as success whatever kind of entry is in the way. */
  function InitAppDir(env: Env, fs: FileSystem, f: Faults): (r: BootResult)
    ensures r.code == 0 || r.code == 1
    ensures r.code == 0 <==> HomeSet(env) && (AppDirPath(env) in fs || f.mkdir.None?)
    ensures r.code == 0 ==> AppDirPath(env) in r.fs
    ensures r.code == 1 ==> r.fs == fs
    ensures HomeSet(env) && AppDirPath(env) in fs ==> r == BootResult(0, fs)
    ensures r.fs != fs ==> && HomeSet(env)
                           && AppDirPath(env) !in fs
                           && AppDirPath(env) in r.fs
                           && r.fs[AppDirPath(env)] == Dir
                           && SameExcept(fs, r.fs, {AppDirPath(env)})
  {
    if !HomeSet(env) then BootResult(1, fs)
    else
      match Mkdir(fs, AppDirPath(env), f.mkdir)
      case Done(fs') => BootResult(0, fs')
      case Fail(e) => if e == EEXIST then BootResult(0, fs) else BootResult(1, fs)
  }

  /** `init_config_file`. An existing regular file (after following links) is
      left alone; an existing entry of another kind is an error; otherwise
      the literal `initial_conf` is written. The text is far smaller than a
      stdio buffer, so it reaches the file only when fclose flushes it: a
      write error that cuts it short makes fclose fail, and so does any
      other fclose error. Either turns the result into 1, although the file
      (or its prefix) is already written. */
  function InitConfigFile(env: Env, fs: FileSystem, f: Faults): (r: BootResult)
    ensures r.code == 0 || r.code == 1
    ensures !HomeSet(env) ==> r == BootResult(1, fs)
    ensures HomeSet(env) && IsRegularFile(fs, ConfigPath(env).value) ==> r == BootResult(0, fs)
    ensures HomeSet(env) && PathExists(fs, ConfigPath(env).value) && !IsRegularFile(fs, ConfigPath(env).value)
            ==> r == BootResult(1, fs)
    ensures r.code == 0 ==> HomeSet(env) && IsRegularFile(r.fs, ConfigPath(env).value)
    ensures r.fs != fs ==> && HomeSet(env)
                           && !PathExists(fs, ConfigPath(env).value)
                           && Follow(fs, ConfigPath(env).value, MaxSymlinkHops).Some?
                           && SameExcept(fs, r.fs, {Follow(fs, ConfigPath(env).value, MaxSymlinkHops).value})
                           && Stat(r.fs, ConfigPath(env).value)
                              == Some(File(Accepted(DefaultConfigAsWritten, f.configAccepted)))
                           && (r.code == 0 <==> !f.configCloseFails
                                                && !ShortWrite(DefaultConfigAsWritten, f.configAccepted))
    // a failed fopen (ELOOP included) creates nothing
    ensures HomeSet(env) && !PathExists(fs, ConfigPath(env).value)
            && (f.configOpen.Some? || Follow(fs, ConfigPath(env).value, MaxSymlinkHops).None?)
            ==> r == BootResult(1, fs)
    // a file the run reports as written holds the whole text
    ensures r.code == 0 && r.fs != fs
            ==> Stat(r.fs, ConfigPath(env).value) == Some(File(DefaultConfigAsWritten))
    ensures HomeSet(env) && !PathExists(fs, ConfigPath(env).value)
            && Follow(fs, ConfigPath(env).value, MaxSymlinkHops).Some?
            && f.configOpen.None?
            ==> && Stat(r.fs, ConfigPath(env).value) == Some(File(Accepted(DefaultConfigAsWritten, f.configAccepted)))
                && r.code == (if f.configCloseFails || ShortWrite(DefaultConfigAsWritten, f.configAccepted) then 1 else 0)
  {
    match ConfigPath(env)
    case None => BootResult(1, fs)
    case Some(path) =>
      if PathExists(fs, path) then
        if IsRegularFile(fs, path) then BootResult(0, fs) else BootResult(1, fs)
      else
        var text := DefaultConfigAsWritten;
        match CreateFile(fs, path, Accepted(text, f.configAccepted), f.configOpen)
        case Fail(_) => BootResult(1, fs)
        case Done(fs') =>
          assert Follow(fs, path, MaxSymlinkHops).Some?;
          assert Follow(fs, path, MaxSymlinkHops).value !in fs;
          var closeFails := f.configCloseFails || ShortWrite(text, f.configAccepted);
          BootResult(if closeFails then 1 else 0, fs')
  }

  /** `init_files`: both steps always run, the second on what the first left;
      the result is 0 only when both succeed. */
  function InitFiles(env: Env, fs: FileSystem, f: Faults): (r: BootResult)
    ensures r.code == 0 || r.code == 1
    ensures r.code == 0 <==> && InitAppDir(env, fs, f).code == 0
                             && InitConfigFile(env, InitAppDir(env, fs, f).fs, f).code == 0
    ensures r.fs == InitConfigFile(env, InitAppDir(env, fs, f).fs, f).fs
    ensures r.code == 0 ==> && HomeSet(env)
                            && AppDirPath(env) in r.fs
                            && IsRegularFile(r.fs, ConfigPath(env).value)
  {
    var dir := InitAppDir(env, fs, f);
    var conf := InitConfigFile(env, dir.fs, f);
    ConfigStepKeepsAppDir(env, dir.fs, f);
    BootResult(if dir.code == 0 && conf.code == 0 then 0 else 1, conf.fs)
  }

  /** The configuration step never removes an entry, so the directory the
      first step made survives it. */
  lemma ConfigStepKeepsAppDir(env: Env, fs: FileSystem, f: Faults)
    ensures HomeSet(env) && AppDirPath(env) in fs ==> AppDirPath(env) in InitConfigFile(env, fs, f).fs
  {
    if !HomeSet(env) || AppDirPath(env) !in fs {
      return;
    }
    var path := ConfigPath(env).value;
    var r := InitConfigFile(env, fs, f);
    if r.fs != fs {
      var q := Follow(fs, path, MaxSymlinkHops).value;
      assert SameExcept(fs, r.fs, {q});
      assert q !in fs;
    }
  }

  /** Bootstrap is idempotent: after a successful run, a second run succeeds
      whatever the operating system does, and changes nothing. */
  lemma InitFilesIdempotent(env: Env, fs: FileSystem, f1: Faults, f2: Faults)
    requires InitFiles(env, fs, f1).code == 0
    ensures InitFiles(env, InitFiles(env, fs, f1).fs, f2)
            == BootResult(0, InitFiles(env, fs, f1).fs)
  {
  }

  // ---------------------------------------------------------------------
  // The default configuration text (confshelf.c:344-349)
  // ---------------------------------------------------------------------

  /** Joins lines, each followed by a newline. */
  function JoinLines(ls: seq<string>): string
  {
    if ls == [] then "" else ls[0] + "\n" + JoinLines(ls[1..])
  }

  /** The lines of `initial_conf` exactly as the C literal spells them: the
      two explanatory lines of `repository_path` lack the comment marker. */
  const ConfigLinesAsWritten: seq<string> := [
    "# Configuration format version.",
    "# Do not modify this variable!",
    "config_version = \"1\"",
    "An absolute path to a repository.",
    // one line, written in two pieces only because the verifier handles long literals slowly
    "The path doesn't have to be " + "a git repository.",
    "repository_path = \"\""
  ]

  /** The same lines with the comment marker the first two comments have. */
  const ConfigLines: seq<string> := [
    ConfigLinesAsWritten[0],
    ConfigLinesAsWritten[1],
    ConfigLinesAsWritten[2],
    "# " + ConfigLinesAsWritten[3],
    "# " + ConfigLinesAsWritten[4],
    ConfigLinesAsWritten[5]
  ]

  /** What `init_config_file` writes. */
  const DefaultConfigAsWritten: string := JoinLines(ConfigLinesAsWritten)

  /** The text with both comments marked, as evidently intended. */
  const DefaultConfig: string := JoinLines(ConfigLines)

  predicate IsBareKeyChar(c: char)
  {
    ('A' <= c <= 'Z') || ('a' <= c <= 'z') || ('0' <= c <= '9') || c == '_' || c == '-'
  }

  /** A TOML bare key: one or more of A-Z a-z 0-9 _ -. */
  predicate IsBareKey(k: string)
  {
    |k| > 0 && forall i :: 0 <= i < |k| ==> IsBareKeyChar(k[i])
  }

  /** A TOML comment line: a hash sign, then no control character but tab. */
  predicate IsComment(l: string)
  {
    && |l| > 0 && l[0] == '#'
    && forall i :: 0 <= i < |l| ==> l[i] == '\t' || (' ' <= l[i] && l[i] as int != 0x7F)
  }

  /** A TOML line `key = "value"` with a bare key and a basic string that
      needs no escape. */
  predicate IsAssignment(l: string)
  {
    var k := Manifest.Find(l, ' ');
    && IsBareKey(l[..k])
    && k + 3 <= |l| && l[k..k + 3] == " = "
    && match Manifest.ParseQuoted(l[k + 3..])
       case None => false
       case Some((v, rest)) => rest == [] && Manifest.NeedsNoEscape(v)
  }

  /** The line forms the default configuration is meant to use: blank lines,
      comments and string assignments. */
  predicate IsConfigLine(l: string)
  {
    l == [] || IsComment(l) || IsAssignment(l)
  }

  /** The value a line assigns to `key`, if it is an assignment to `key`. */
  function AssignedValue(l: string, key: string): Option<string>
  {
    if IsAssignment(l) && l[..Manifest.Find(l, ' ')] == key then
      Some(Manifest.ParseQuoted(l[Manifest.Find(l, ' ') + 3..]).value.0)
    else None
  }

  /** The fourth line of the text as written is none of the line forms: it
      starts with the bare key `An`, which TOML requires to be followed by
      `=` or `.` after optional whitespace, and it is followed by `a`. */
  lemma DefaultConfigAsWrittenIsNotToml()
    ensures !IsConfigLine(ConfigLinesAsWritten[3])
    ensures ConfigLinesAsWritten[3][..4] == "An a"
  {
    NotConfigLine(ConfigLinesAsWritten[3]);
  }

  /** A line whose first word has two letters and is followed by a space and
      then something other than `=` is not a line form of the configuration. */
  lemma NotConfigLine(l: string)
    requires |l| >= 4 && l[0] != '#' && l[0] != ' ' && l[1] != ' ' && l[2] == ' ' && l[3] != '='
    ensures !IsConfigLine(l)
  {
    Manifest.FindIs(l, ' ', 2);
    if |l| >= 5 {
      assert l[2..5][1] == l[3];
    }
  }

  /** Every line of the corrected text is blank, a comment or a string
      assignment. */
  lemma DefaultConfigIsToml()
    ensures forall i :: 0 <= i < |ConfigLines| ==> IsConfigLine(ConfigLines[i])
  {
    VersionComments();
    PathComments();
    Settings();
    SixLines(ConfigLines);
  }

  /** The step from six facts to the quantified statement, kept apart from the
      literal text so that the verifier does not unfold the lines again. */
  lemma SixLines(ls: seq<string>)
    requires |ls| == 6
    requires IsConfigLine(ls[0]) && IsConfigLine(ls[1]) && IsConfigLine(ls[2])
    requires IsConfigLine(ls[3]) && IsConfigLine(ls[4]) && IsConfigLine(ls[5])
    ensures forall i :: 0 <= i < |ls| ==> IsConfigLine(ls[i])
  {
    forall i | 0 <= i < |ls|
      ensures IsConfigLine(ls[i])
    {
      if i == 0 {
      } else if i == 1 {
      } else if i == 2 {
      } else if i == 3 {
      } else if i == 4 {
      } else {
        assert i == 5;
      }
    }
  }

  /** The two setting lines. */
  lemma Settings()
    ensures IsConfigLine(ConfigLines[2]) && IsConfigLine(ConfigLines[5])
  {
    VersionSetting();
    PathSetting();
  }

  lemma VersionSetting()
    ensures IsConfigLine(ConfigLines[2])
  {
    SettingLines();
    AssignmentLine("config_version", "1");
  }

  lemma PathSetting()
    ensures IsConfigLine(ConfigLines[5])
  {
    SettingLines();
    AssignmentLine("repository_path", "");
  }

  /** The two comments above `config_version`. */
  lemma VersionComments()
    ensures IsConfigLine(ConfigLines[0]) && IsConfigLine(ConfigLines[1])
  {
    CommentLine(ConfigLines[0]);
    CommentLine(ConfigLines[1]);
  }

  /** The two comments above `repository_path`, once marked. */
  lemma PathComments()
    ensures IsConfigLine(ConfigLines[3]) && IsConfigLine(ConfigLines[4])
  {
    CommentLine(ConfigLines[3]);
    CommentLine(ConfigLines[4]);
  }

  /** The configuration format version of the corrected text reads back as "1". */
  lemma DefaultConfigVersion()
    ensures AssignedValue(ConfigLines[2], "config_version") == Some("1")
  {
    SettingLines();
    AssignmentLine("config_version", "1");
  }

  /** The repository path of the corrected text reads back as empty. */
  lemma DefaultConfigRepositoryPath()
    ensures AssignedValue(ConfigLines[5], "repository_path") == Some("")
  {
    SettingLines();
    AssignmentLine("repository_path", "");
  }

  /** The two setting lines, split at the assignment. */
  lemma SettingLines()
    ensures ConfigLines[2] == "config_version" + " = \"" + "1" + "\""
    ensures ConfigLines[5] == "repository_path" + " = \"" + "" + "\""
  {
    var a, b := ConfigLines[2], "config_version" + " = \"" + "1" + "\"";
    assert |a| == |b| && forall i :: 0 <= i < |a| ==> a[i] == b[i];
    var c, d := ConfigLines[5], "repository_path" + " = \"" + "" + "\"";
    assert |c| == |d| && forall i :: 0 <= i < |c| ==> c[i] == d[i];
  }

  lemma CommentLine(l: string)
    requires |l| > 0 && l[0] == '#'
    requires forall i :: 0 <= i < |l| ==> ' ' <= l[i] <= '~'
    ensures IsConfigLine(l)
  {
  }

  lemma AssignmentLine(k: string, v: string)
    requires IsBareKey(k)
    requires Manifest.NeedsNoEscape(v)
    ensures IsConfigLine(k + " = \"" + v + "\"")
    ensures AssignedValue(k + " = \"" + v + "\"", k) == Some(v)
  {
    var l := k + " = \"" + v + "\"";
    assert l[|k|] == ' ';
    Manifest.FindIs(l, ' ', |k|);
    assert l[..|k|] == k;
    assert l[|k| + 3..] == "\"" + v + "\"" + "";
    Manifest.ParseQuotedOf(v, "");
  }
}

=== FILE: commands.dfy ===
/**
  The two mutating commands of confshelf.c: `manage` (move a file into the
  repository and link it back) and `cmd_link` (link an existing repository
  member from a new place). Each is a pipeline of checks, every one of which
  leaves the state alone when it fails, followed by mutations that are not
  rolled back when a later one fails.
*/
module Commands {
  import opened Options
  import opened Posix
  import opened Paths
  import opened Injected
  import opened Manifest

  /** Everything a command can change: the filesystem and the text of
      known_links.toml. */
  datatype State = State(fs: FileSystem, manifest: string)

  /** Which outcome the program reports: the message it prints, and with it
      how far a command got before it stopped. */
  datatype Report =
    | Success
    | Usage                                                  // too few arguments
    | NotExists(path: Path)
    | NotRegularFile(path: Path)
    | AlreadyExists(path: Path)
    | MoveFailed(from: Path, to: Path, errno: Errno)         // nothing changed
    | SymlinkFailed(link: Path, target: Path, errno: Errno)  // manage: file moved, no link
    | ManifestFailed(error: ManifestError)                   // link in place, not recorded
    | Help                                                   // main: usage printed
    | BootstrapFailed                                        // main: init_files failed
    | UnknownCommand                                         // main: not dispatched
    | SetupRan                                               // main: setup returned

  datatype Outcome = Outcome(code: int, report: Report, st: State)

  /** `src` now links to `dst`, which holds what `src` held; nothing else
      changed. */
  ghost predicate LinkedBack(a: FileSystem, b: FileSystem, src: Path, dst: Path)
  {
    && src != dst
    && src in a
    && src in b && b[src] == Symlink(dst)
    && dst in b && b[dst] == a[src]
    && SameExcept(a, b, {src, dst})
  }

  /** `link` is new and links to `target`; nothing else changed. */
  ghost predicate LinkedTo(a: FileSystem, b: FileSystem, link: Path, target: Path)
  {
    && link !in a
    && link in b && b[link] == Symlink(target)
    && SameExcept(a, b, {link})
  }

  /** The three checks `manage` makes before it touches anything. */
  predicate ManageChecksPass(fs: FileSystem, src: Path, dst: Path)
  {
    PathExists(fs, src) && IsRegularFile(fs, src) && !PathExists(fs, dst)
  }

  /** `manage <src path> <dst name>`: `args` is argv, so the source is
      `args[2]` and the repository name `args[3]`. The repository path is
      built before the first check, which dereferences `NULL` when `HOME` is
      unset: hence the precondition. */
  function Manage(args: seq<string>, env: Env, st: State, f: Faults): (r: Outcome)
    requires |args| >= 4 ==> HomeSet(env)
    ensures r.code == 0 || r.code == 1
    ensures r.code == 0 <==> r.report == Success
    ensures st.manifest <= r.st.manifest
    ensures r.code != 0 ==> r.st.manifest == st.manifest
    ensures r.st != st ==> |args| >= 4 && ManageChecksPass(st.fs, args[2], PathInRepo(env, args[3]))
    ensures |args| < 4 ==> r == Outcome(1, Usage, st)
    ensures |args| >= 4 && !PathExists(st.fs, args[2])
            ==> r == Outcome(1, NotExists(args[2]), st)
    ensures |args| >= 4 && PathExists(st.fs, args[2]) && !IsRegularFile(st.fs, args[2])
            ==> r == Outcome(1, NotRegularFile(args[2]), st)
    ensures |args| >= 4 && IsRegularFile(st.fs, args[2]) && PathExists(st.fs, PathInRepo(env, args[3]))
            ==> r == Outcome(1, AlreadyExists(PathInRepo(env, args[3])), st)
    // once the checks pass, each syscall fault stops the command with its own report
    ensures |args| >= 4 && ManageChecksPass(st.fs, args[2], PathInRepo(env, args[3])) ==>
              && (f.rename.Some? ==>
                    r == Outcome(1, MoveFailed(args[2], PathInRepo(env, args[3]), f.rename.value), st))
              && (f.rename.None? && f.symlink.Some? ==>
                    r.report == SymlinkFailed(args[2], PathInRepo(env, args[3]), f.symlink.value))
              && (f.rename.None? && f.symlink.None? && f.manifestOpen.Some? ==> r.report.ManifestFailed?)
    ensures r.report.MoveFailed? ==> r.st == st
    ensures r.report.SymlinkFailed? ==> && |args| >= 4
                                        && Moved(st.fs, r.st.fs, args[2], PathInRepo(env, args[3]))
                                        && r.st.manifest == st.manifest
    ensures r.report.ManifestFailed? ==> && |args| >= 4
                                         && LinkedBack(st.fs, r.st.fs, args[2], PathInRepo(env, args[3]))
                                         && r.st.manifest == st.manifest
    ensures r.code == 0 ==> && |args| >= 4
                            && LinkedBack(st.fs, r.st.fs, args[2], PathInRepo(env, args[3]))
                            && r.st.manifest == st.manifest
                               + Accepted(EntryLine(Entry(args[2], args[3])), f.manifestAccepted)
  {
    if |args| < 4 then Outcome(1, Usage, st)
    else
      var src, name := args[2], args[3];
      var dst := PathInRepo(env, name);
      if !PathExists(st.fs, src) then Outcome(1, NotExists(src), st)
      else if !IsRegularFile(st.fs, src) then Outcome(1, NotRegularFile(src), st)
      else if PathExists(st.fs, dst) then Outcome(1, AlreadyExists(dst), st)
      else
        match Rename(st.fs, src, dst, f.rename)
        case Fail(e) => Outcome(1, MoveFailed(src, dst, e), st)
        case Done(moved) =>
          match MakeSymlink(moved, dst, src, f.symlink)
          case Fail(e) => Outcome(1, SymlinkFailed(src, dst, e), State(moved, st.manifest))
          case Done(linked) =>
            var a := InsertKnownLinks(env, st.manifest, src, name, f.manifestOpen, f.manifestAccepted);
            if a.code != 0 then Outcome(1, ManifestFailed(a.error.value), State(linked, a.manifest))
            else Outcome(0, Success, State(linked, a.manifest))
  }

  /** `manage` succeeds exactly when its checks pass and none of its three
      syscalls (rename, symlink, fopen of the manifest) fails. */
  lemma ManageSucceedsIff(args: seq<string>, env: Env, st: State, f: Faults)
    requires |args| >= 4 ==> HomeSet(env)
    ensures Manage(args, env, st, f).code == 0 <==>
      && |args| >= 4
      && ManageChecksPass(st.fs, args[2], PathInRepo(env, args[3]))
      && f.rename.None? && f.symlink.None? && f.manifestOpen.None?
  {
    if |args| >= 4 && ManageChecksPass(st.fs, args[2], PathInRepo(env, args[3])) {
      var src, dst := args[2], PathInRepo(env, args[3]);
      assert src in st.fs;
      assert src != dst;
      assert dst in st.fs ==> !st.fs[dst].Dir?;
      assert !st.fs[src].Dir?;
    }
  }

  /** No data is lost: when the source was a regular file, after the move
      both the repository path and (once linked) the source path read back
      the original content. */
  lemma ManageKeepsContent(args: seq<string>, env: Env, st: State, f: Faults)
    requires |args| >= 4 && HomeSet(env)
    requires args[2] in st.fs && st.fs[args[2]].File?
    ensures var r := Manage(args, env, st, f);
            r.report.SymlinkFailed? || r.report.ManifestFailed? || r.code == 0
            ==> Stat(r.st.fs, PathInRepo(env, args[3])) == Some(st.fs[args[2]])
    ensures var r := Manage(args, env, st, f);
            r.report.ManifestFailed? || r.code == 0
            ==> Stat(r.st.fs, args[2]) == Some(st.fs[args[2]])
  {
    var r := Manage(args, env, st, f);
    var src, dst := args[2], PathInRepo(env, args[3]);
    if r.report.ManifestFailed? || r.code == 0 {
      assert Follow(r.st.fs, dst, MaxSymlinkHops - 1) == Some(dst);
    }
  }

  /** Running the same `manage` twice: the second call finds the repository
      member the first one created and changes nothing. */
  lemma ManageTwiceConflicts(args: seq<string>, env: Env, st: State, f1: Faults, f2: Faults)
    requires |args| >= 4 && HomeSet(env)
    requires args[2] in st.fs && st.fs[args[2]].File?
    requires Manage(args, env, st, f1).code == 0
    ensures var st1 := Manage(args, env, st, f1).st;
            Manage(args, env, st1, f2) == Outcome(1, AlreadyExists(PathInRepo(env, args[3])), st1)
  {
    ManageKeepsContent(args, env, st, f1);
  }

  /** When its checks pass and no syscall fails, `manage` succeeds and adds
      exactly one entry to a readable manifest: the source path and the bare
      repository name. */
  lemma ManageRecordsOneEntry(args: seq<string>, env: Env, st: State, f: Faults)
    requires |args| >= 4 && HomeSet(env)
    requires ManageChecksPass(st.fs, args[2], PathInRepo(env, args[3]))
    requires f.rename.None? && f.symlink.None? && f.manifestOpen.None? && f.manifestAccepted.None?
    requires Parse(st.manifest).Some? && Clean(Entry(args[2], args[3]))
    ensures Manage(args, env, st, f).code == 0
    ensures Parse(Manage(args, env, st, f).st.manifest)
            == Some(Parse(st.manifest).value + [Entry(args[2], args[3])])
  {
    ManageSucceedsIff(args, env, st, f);
    AppendEntry(st.manifest, Entry(args[2], args[3]));
  }

  /** The three checks `cmd_link` makes before it touches anything. */
  predicate LinkChecksPass(fs: FileSystem, member: Path, link: Path)
  {
    PathExists(fs, member) && IsRegularFile(fs, member) && !PathExists(fs, link)
  }

  /** `link <repository name> <symlink path>`: the repository member is
      `args[2]`, the new link `args[3]`. */
  function CmdLink(args: seq<string>, env: Env, st: State, f: Faults): (r: Outcome)
    requires |args| >= 4 ==> HomeSet(env)
    ensures r.code == 0 || r.code == 1
    ensures r.code == 0 <==> r.report == Success
    ensures st.manifest <= r.st.manifest
    ensures r.code != 0 ==> r.st.manifest == st.manifest
    ensures r.st != st ==> |args| >= 4 && LinkChecksPass(st.fs, PathInRepo(env, args[2]), args[3])
    ensures |args| < 4 ==> r == Outcome(1, Usage, st)
    ensures |args| >= 4 && !PathExists(st.fs, PathInRepo(env, args[2]))
            ==> r == Outcome(1, NotExists(PathInRepo(env, args[2])), st)
    ensures |args| >= 4 && PathExists(st.fs, PathInRepo(env, args[2]))
            && !IsRegularFile(st.fs, PathInRepo(env, args[2]))
            ==> r == Outcome(1, NotRegularFile(PathInRepo(env, args[2])), st)
    ensures |args| >= 4 && IsRegularFile(st.fs, PathInRepo(env, args[2])) && PathExists(st.fs, args[3])
            ==> r == Outcome(1, AlreadyExists(args[3]), st)
    // once the checks pass, an entry at the link path (a dangling link) or a
    // symlink fault stops the command first, then an fopen fault
    ensures |args| >= 4 && LinkChecksPass(st.fs, PathInRepo(env, args[2]), args[3]) ==>
              && (args[3] in st.fs ==> r == Outcome(1, SymlinkFailed(args[3], PathInRepo(env, args[2]), EEXIST), st))
              && (args[3] !in st.fs && f.symlink.Some? ==>
                    r == Outcome(1, SymlinkFailed(args[3], PathInRepo(env, args[2]), f.symlink.value), st))
              && (args[3] !in st.fs && f.symlink.None? && f.manifestOpen.Some? ==> r.report.ManifestFailed?)
    ensures r.report.SymlinkFailed? ==> r.st == st
    ensures r.report.ManifestFailed? ==> && |args| >= 4
                                         && LinkedTo(st.fs, r.st.fs, args[3], PathInRepo(env, args[2]))
                                         && r.st.manifest == st.manifest
    ensures r.code == 0 ==> && |args| >= 4
                            && LinkedTo(st.fs, r.st.fs, args[3], PathInRepo(env, args[2]))
                            && r.st.manifest == st.manifest
                               + Accepted(EntryLine(Entry(args[3], args[2])), f.manifestAccepted)
  {
    if |args| < 4 then Outcome(1, Usage, st)
    else
      var name, link := args[2], args[3];
      var member := PathInRepo(env, name);
      if !PathExists(st.fs, member) then Outcome(1, NotExists(member), st)
      else if !IsRegularFile(st.fs, member) then Outcome(1, NotRegularFile(member), st)
      else if PathExists(st.fs, link) then Outcome(1, AlreadyExists(link), st)
      else
        match MakeSymlink(st.fs, member, link, f.symlink)
        case Fail(e) => Outcome(1, SymlinkFailed(link, member, e), st)
        case Done(linked) =>
          var a := InsertKnownLinks(env, st.manifest, link, name, f.manifestOpen, f.manifestAccepted);
          if a.code != 0 then Outcome(1, ManifestFailed(a.error.value), State(linked, a.manifest))
          else Outcome(0, Success, State(linked, a.manifest))
  }

  /** `cmd_link` succeeds exactly when its checks pass, nothing at all (not
      even a dangling link) occupies the link path, and neither symlink nor
      the manifest fopen fails. */
  lemma CmdLinkSucceedsIff(args: seq<string>, env: Env, st: State, f: Faults)
    requires |args| >= 4 ==> HomeSet(env)
    ensures CmdLink(args, env, st, f).code == 0 <==>
      && |args| >= 4
      && LinkChecksPass(st.fs, PathInRepo(env, args[2]), args[3])
      && args[3] !in st.fs
      && f.symlink.None? && f.manifestOpen.None?
  {
  }

  /** When its checks pass, the link path is free and no syscall fails,
      `link` succeeds and adds exactly one entry to a readable manifest: the
      new link path and the bare repository name. */
  lemma CmdLinkRecordsOneEntry(args: seq<string>, env: Env, st: State, f: Faults)
    requires |args| >= 4 && HomeSet(env)
    requires LinkChecksPass(st.fs, PathInRepo(env, args[2]), args[3]) && args[3] !in st.fs
    requires f.symlink.None? && f.manifestOpen.None? && f.manifestAccepted.None?
    requires Parse(st.manifest).Some? && Clean(Entry(args[3], args[2]))
    ensures CmdLink(args, env, st, f).code == 0
    ensures Parse(CmdLink(args, env, st, f).st.manifest)
            == Some(Parse(st.manifest).value + [Entry(args[3], args[2])])
  {
    CmdLinkSucceedsIff(args, env, st, f);
    AppendEntry(st.manifest, Entry(args[3], args[2]));
  }

  /** A dangling symbolic link at the link path passes the existence check
      (stat follows it and finds nothing) and then makes symlink fail with
      EEXIST: nothing changes. */
  lemma CmdLinkOverDanglingLink(args: seq<string>, env: Env, st: State, f: Faults)
    requires |args| >= 4 && HomeSet(env)
    requires IsRegularFile(st.fs, PathInRepo(env, args[2]))
    requires args[3] in st.fs && !PathExists(st.fs, args[3])
    ensures CmdLink(args, env, st, f) == Outcome(1, SymlinkFailed(args[3], PathInRepo(env, args[2]), EEXIST), st)
  {
  }

  /** After a successful `link` the new path reads what the repository
      member reads, provided the member resolves with one hop to spare, and
      the member itself is untouched. */
  lemma CmdLinkResolvesToMember(args: seq<string>, env: Env, st: State, f: Faults)
    requires |args| >= 4 && HomeSet(env)
    requires CmdLink(args, env, st, f).code == 0
    requires Follow(st.fs, PathInRepo(env, args[2]), MaxSymlinkHops - 1).Some?
    ensures var r := CmdLink(args, env, st, f);
            && Stat(r.st.fs, args[3]) == Stat(st.fs, PathInRepo(env, args[2]))
            && PathInRepo(env, args[2]) in r.st.fs
            && r.st.fs[PathInRepo(env, args[2])] == st.fs[PathInRepo(env, args[2])]
  {
    var r := CmdLink(args, env, st, f);
    var member, link := PathInRepo(env, args[2]), args[3];
    var q := Follow(st.fs, member, MaxSymlinkHops - 1).value;
    FollowMoreFuel(st.fs, member, MaxSymlinkHops - 1, MaxSymlinkHops);
    assert q in st.fs;
    NewLinkResolves(st.fs, r.st.fs, link, member);
  }
}

=== FILE: create_link.dfy ===
/**
  `create_link` of src/main.rs: a guarded "create or replace symbolic link".
  Existence is asked with `Path::exists`, which follows links; the kind of
  the entry in the way is asked with `fs::symlink_metadata`, which does not.
*/
module LinkCreation {
  import opened Options
  import opened Posix
  import opened LinkError

  /** One entry of a recipe: make `symlink` a symbolic link to `target`. */
  datatype Link = Link(symlink: Path, target: Path)

  datatype LinkResult = Ok | Err(error: LinkCreationError)

  datatype LinkOutcome = LinkOutcome(result: LinkResult, fs: FileSystem)

  /** The failures of `fs::remove_file` and `unix::fs::symlink` the state
      does not decide. */
  datatype RustFaults = RustFaults(remove: Option<Fault>, symlink: Option<Fault>)

  const RemoveFailedMsg: string := "Failed to remove symlink path"
  const CreateFailedMsg: string := "Failed to create symlink"

  /** The type checks `force` skips: an entry at the symlink path that
      resolves must be a symbolic link. */
  predicate Rejects(fs: FileSystem, link: Link, force: bool)
  {
    !force && PathExists(fs, link.symlink) && !fs[link.symlink].Symlink?
  }

  /** The new link is in place, and nothing but the symlink path changed. */
  ghost predicate Installed(a: FileSystem, b: FileSystem, link: Link)
  {
    && link.symlink in b
    && b[link.symlink] == Symlink(link.target)
    && SameExcept(a, b, {link.symlink})
  }

  function CreateLink(fs: FileSystem, link: Link, force: bool, f: RustFaults): (r: LinkOutcome)
    // the target is checked first, and a missing one stops everything
    ensures !PathExists(fs, link.target) ==> r == LinkOutcome(Err(TargetNotExists), fs)
    // without force, an entry in the way that is not a symbolic link stops everything
    ensures PathExists(fs, link.target) && Rejects(fs, link, force) && fs[link.symlink].Dir?
            ==> r == LinkOutcome(Err(SymlinkPathIsDir), fs)
    ensures PathExists(fs, link.target) && Rejects(fs, link, force) && !fs[link.symlink].Dir?
            ==> r == LinkOutcome(Err(SymlinkPathIsNotDirOrSymlink), fs)
    // only the two syscalls can report an I/O error, each with its own message
    ensures r.result.Err? && r.result.error.IOError? ==>
              r.result.error.msg in {RemoveFailedMsg, CreateFailedMsg}
    // no error other than an I/O error changes anything
    ensures r.result.Err? && !r.result.error.IOError? ==> r.fs == fs
    // an entry the checks let through is removed first: a directory or a fault
    // stops there, and nothing changes
    ensures PathExists(fs, link.target) && !Rejects(fs, link, force) && PathExists(fs, link.symlink)
            && (fs[link.symlink].Dir? || f.remove.Some?)
            ==> r == LinkOutcome(Err(IOError(RemoveFailedMsg,
                                             if fs[link.symlink].Dir? then EISDIR else f.remove.value)), fs)
    // with the path cleared, a symlink fault leaves the old entry removed
    ensures PathExists(fs, link.target) && !Rejects(fs, link, force)
            && (PathExists(fs, link.symlink) ==> !fs[link.symlink].Dir? && f.remove.None?)
            && (link.symlink in fs ==> PathExists(fs, link.symlink))
            && f.symlink.Some?
            ==> r == LinkOutcome(Err(IOError(CreateFailedMsg, f.symlink.value)), fs - {link.symlink})
    // a failed removal changes nothing
    ensures r.result.Err? && r.result.error.IOError? && r.result.error.msg == RemoveFailedMsg ==> r.fs == fs
    // a failed creation leaves the old entry removed, if there was one to remove
    ensures r.result.Err? && r.result.error.IOError? && r.result.error.msg == CreateFailedMsg ==>
              r.fs == (if PathExists(fs, link.symlink) then fs - {link.symlink} else fs)
    ensures r.result == Ok ==> Installed(fs, r.fs, link)
    ensures r.fs != fs ==> && PathExists(fs, link.target) && !Rejects(fs, link, force)
                           && (r.result == Ok || PathExists(fs, link.symlink))
  {
    if !PathExists(fs, link.target) then LinkOutcome(Err(TargetNotExists), fs)
    else if !force && PathExists(fs, link.symlink) && Lstat(fs, link.symlink).value.Dir? then
      LinkOutcome(Err(SymlinkPathIsDir), fs)
    else if !force && PathExists(fs, link.symlink) && !Lstat(fs, link.symlink).value.Symlink? then
      LinkOutcome(Err(SymlinkPathIsNotDirOrSymlink), fs)
    else
      var removed :=
        if PathExists(fs, link.symlink) then Unlink(fs, link.symlink, f.remove) else Done(fs);
      match removed
      case Fail(e) => LinkOutcome(Err(IOError(RemoveFailedMsg, e)), fs)
      case Done(cleared) =>
        match MakeSymlink(cleared, link.target, link.symlink, f.symlink)
        case Fail(e) => LinkOutcome(Err(IOError(CreateFailedMsg, e)), cleared)
        case Done(linked) => LinkOutcome(Ok, linked)
  }

  /** Exactly when `create_link` succeeds: the target resolves, the symlink
      path is either free of any entry or holds a removable entry the type
      checks let through, and neither syscall fails. */
  lemma CreateLinkOkIff(fs: FileSystem, link: Link, force: bool, f: RustFaults)
    ensures CreateLink(fs, link, force, f).result == Ok <==>
      && PathExists(fs, link.target)
      && f.symlink.None?
      && (if PathExists(fs, link.symlink)
          then !Rejects(fs, link, force) && !fs[link.symlink].Dir? && f.remove.None?
          else link.symlink !in fs)
  {
    if PathExists(fs, link.target) && PathExists(fs, link.symlink) {
      assert link.symlink in fs;
    }
  }

  /** Success leaves the symlink path a link to the target, whatever was
      there before, and leaves the target's own entry alone. */
  lemma CreateLinkKeepsTarget(fs: FileSystem, link: Link, force: bool, f: RustFaults)
    requires CreateLink(fs, link, force, f).result == Ok
    requires link.target != link.symlink
    ensures var r := CreateLink(fs, link, force, f);
            Lstat(r.fs, link.symlink) == Some(Symlink(link.target))
            && Lstat(r.fs, link.target) == Lstat(fs, link.target)
  {
  }

  /** A dangling symbolic link at the symlink path "does not exist": it is
      neither checked nor removed, and the symlink call then finds the path
      taken. Nothing changes. */
  lemma DanglingSymlinkPathFails(fs: FileSystem, link: Link, force: bool, f: RustFaults)
    requires PathExists(fs, link.target)
    requires link.symlink in fs && !PathExists(fs, link.symlink)
    ensures CreateLink(fs, link, force, f) == LinkOutcome(Err(IOError(CreateFailedMsg, EEXIST)), fs)
  {
  }

  /** With `force`, an existing regular file at the symlink path is replaced
      by the link (the type checks are skipped). */
  lemma ForceReplacesFile(fs: FileSystem, link: Link, content: string)
    requires PathExists(fs, link.target)
    requires link.symlink in fs && fs[link.symlink] == File(content)
    ensures var r := CreateLink(fs, link, true, RustFaults(None, None));
            r.result == Ok && Installed(fs, r.fs, link)
  {
  }

  /** With `force`, a directory at the symlink path cannot be removed by
      `remove_file`: the result is an I/O error and nothing changes. */
  lemma ForceOverDirectoryFails(fs: FileSystem, link: Link, f: RustFaults)
    requires PathExists(fs, link.target)
    requires link.symlink in fs && fs[link.symlink] == Dir
    ensures CreateLink(fs, link, true, f) == LinkOutcome(Err(IOError(RemoveFailedMsg, EISDIR)), fs)
  {
  }

  // ---------------------------------------------------------------------
  // The unit tests of src/main.rs, on the directory `init_test` prepares
  // ---------------------------------------------------------------------

  const TestDir: Path := "/t"
  const JustRegularFile: Path := "/t/just_regular_file"
  const JustSymbolicLink: Path := "/t/just_symbolic_link"

  /** A test directory holding one regular file and a link to it. */
  function TestFs(): (fs: FileSystem)
    ensures IsRegularFile(fs, JustRegularFile)
  {
    map[TestDir := Dir,
        JustRegularFile := File("Just a content"),
        JustSymbolicLink := Symlink(JustRegularFile)]
  }

  /** A fresh path becomes a link to the regular file. */
  lemma TestNewSymlink()
    ensures var r := CreateLink(TestFs(), Link("/t/new_symlink", JustRegularFile), false, RustFaults(None, None));
            r.result == Ok && r.fs["/t/new_symlink"] == Symlink(JustRegularFile)
  {
  }

  /** An existing link is pointed at a new target. */
  lemma TestReplaceSymlink()
    ensures var fs := TestFs()["/t/new_target_file" := File("")];
            var r := CreateLink(fs, Link(JustSymbolicLink, "/t/new_target_file"), false, RustFaults(None, None));
            r.result == Ok && r.fs[JustSymbolicLink] == Symlink("/t/new_target_file")
  {
    var fs := TestFs()["/t/new_target_file" := File("")];
    assert Stat(fs, JustSymbolicLink) == Some(File("Just a content")) by {
      assert Follow(fs, JustSymbolicLink, MaxSymlinkHops) == Follow(fs, JustRegularFile, MaxSymlinkHops - 1);
    }
  }

  lemma TestTargetNotExists()
    ensures var r := CreateLink(TestFs(), Link("this_is_symlink", "foobar"), false, RustFaults(None, None));
            r.result.Err? && Display(r.result.error) == "Target file not exists"
  {
  }

  lemma TestSymlinkIsDir()
    ensures var fs := TestFs()["/t/foo_dir" := Dir];
            var r := CreateLink(fs, Link("/t/foo_dir", JustRegularFile), false, RustFaults(None, None));
            r.result.Err? && Display(r.result.error) == "Symlink path is a directory"
  {
  }

  lemma TestSymlinkIsRegularFile()
    ensures var fs := TestFs()["/t/foo_file" := File("")];
            var r := CreateLink(fs, Link("/t/foo_file", JustRegularFile), false, RustFaults(None, None));
            r.result.Err? && Display(r.result.error) == SymlinkPathIsNotDirOrSymlinkText
  {
  }
}

=== FILE: dispatch.dfy ===
/**
  Command dispatch in confshelf.c: the command-name table (`conv_cmd_str_id`
  with the `CMD_*` bit flags) and `main`, which prints usage for `help`,
  bootstraps the application directory, and then runs the one command it
  implements.
*/
module Dispatch {
  import opened Options
  import opened Posix
  import opened Paths
  import opened Injected
  import opened Bootstrap
  import opened Commands
  import Manifest

  /** The command names in the order of their flag bits: `CMD_SETUP` is bit 0,
      `CMD_PULL` bit 1, and so on up to `CMD_STATUS`, bit 7. */
  const CommandNames: seq<string> :=
    ["setup", "pull", "push", "commit", "manage", "unmanage", "link", "status"]

  /** `0b01 << k`. */
  function Bit(k: nat): (r: nat)
    ensures r >= 1
  {
    if k == 0 then 1 else 2 * Bit(k - 1)
  }

  /** Larger shifts give strictly larger flags. */
  lemma {:induction false} BitIncreasing(j: nat, k: nat)
    requires j < k
    ensures Bit(j) < Bit(k)
  {
    if j < k - 1 {
      BitIncreasing(j, k - 1);
    }
  }

  /** The eight flags of the table, written out. */
  lemma BitValues()
    ensures Bit(0) == 1 && Bit(1) == 2 && Bit(2) == 4 && Bit(3) == 8
    ensures Bit(4) == 16 && Bit(5) == 32 && Bit(6) == 64 && Bit(7) == 128
  {
  }

  /** `conv_cmd_str_id`: the flag of a known command, -1 for anything else. */
  function ConvCmdStrId(command: string): (r: int)
    ensures r == -1 <==> command !in CommandNames
    ensures forall k :: 0 <= k < |CommandNames| ==> (command == CommandNames[k] <==> r == Bit(k))
  {
    BitValues();
    if command == "setup" then 1
    else if command == "push" then 4
    else if command == "pull" then 2
    else if command == "commit" then 8
    else if command == "manage" then 16
    else if command == "unmanage" then 32
    else if command == "link" then 64
    else if command == "status" then 128
    else -1
  }

  /** The inverse of `ConvCmdStrId`: the command a flag stands for. */
  function CommandOfId(id: int): (r: Option<string>)
    ensures r.Some? ==> r.value in CommandNames
  {
    if id == -1 then None
    else CommandOfIdFrom(id, 0)
  }

  function CommandOfIdFrom(id: int, k: nat): (r: Option<string>)
    requires k <= |CommandNames|
    ensures r.Some? ==> exists j :: k <= j < |CommandNames| && CommandNames[j] == r.value && Bit(j) == id
    decreases |CommandNames| - k
  {
    if k == |CommandNames| then None
    else if Bit(k) == id then Some(CommandNames[k])
    else CommandOfIdFrom(id, k + 1)
  }

  lemma {:induction false} CommandOfIdFromFinds(id: int, k: nat, j: nat)
    requires k <= j < |CommandNames| && Bit(j) == id
    ensures CommandOfIdFrom(id, k) == Some(CommandNames[j])
    decreases j - k
  {
    if Bit(k) != id {
      CommandOfIdFromFinds(id, k + 1, j);
    } else if k != j {
      if k < j { BitIncreasing(k, j); } else { BitIncreasing(j, k); }
    }
  }

  /** Every command name survives the trip to its flag and back, and every
      flag the table hands out names the command it came from. */
  lemma CommandIdRoundTrip(command: string)
    ensures CommandOfId(ConvCmdStrId(command)) == (if command in CommandNames then Some(command) else None)
  {
    if command in CommandNames {
      var j :| 0 <= j < |CommandNames| && CommandNames[j] == command;
      CommandOfIdFromFinds(ConvCmdStrId(command), 0, j);
    }
  }

  /** Distinct command names get distinct flags. */
  lemma CommandIdsDistinct(c1: string, c2: string)
    requires c1 in CommandNames && c2 in CommandNames && c1 != c2
    ensures ConvCmdStrId(c1) != ConvCmdStrId(c2)
  {
    CommandIdRoundTrip(c1);
    CommandIdRoundTrip(c2);
  }

  /** `main`. `args` is argv with the program name at index 0. `gitInit` is
      what `setup` does to the filesystem (libgit2's repository
      initialisation); `setup` reports its own failures and `main` returns 0
      after it whatever happened. */
  function Main(args: seq<string>, env: Env, st: State, f: Faults,
                gitInit: FileSystem -> FileSystem): (r: Outcome)
    ensures r.code == 0 || r.code == 1
    ensures st.manifest <= r.st.manifest
    ensures |args| < 2 || args[1] == "help" ==> r == Outcome(0, Help, st)
    ensures r.report.BootstrapFailed? <==>
              |args| >= 2 && args[1] != "help" && InitFiles(env, st.fs, f).code != 0
    ensures r.report.UnknownCommand? <==>
              && |args| >= 2 && args[1] != "help" && InitFiles(env, st.fs, f).code == 0
              && args[1] !in {"setup", "manage", "link"}
    ensures r.report.UnknownCommand? || r.report.BootstrapFailed? ==> r.code == 1
    ensures r.report.SetupRan? ==> r.code == 0
    ensures r.code == 0 ==> r.report in {Help, SetupRan, Success}
  {
    if |args| < 2 || args[1] == "help" then Outcome(0, Help, st)
    else
      var boot := InitFiles(env, st.fs, f);
      var ready := State(boot.fs, st.manifest);
      if boot.code != 0 then Outcome(1, BootstrapFailed, ready)
      else RunCommand(args, env, ready, f, gitInit)
  }

  /** The part of `main` after a successful bootstrap: the switch on the
      command flag. */
  function RunCommand(args: seq<string>, env: Env, ready: State, f: Faults,
                      gitInit: FileSystem -> FileSystem): (r: Outcome)
    requires |args| >= 2 && HomeSet(env)
    ensures r.code == 0 || r.code == 1
    ensures ready.manifest <= r.st.manifest
    ensures r.report.UnknownCommand? <==> args[1] !in {"setup", "manage", "link"}
    ensures r.report.UnknownCommand? ==> r.code == 1
    ensures r.report.SetupRan? ==> r.code == 0
    ensures !r.report.Help? && !r.report.BootstrapFailed?
    ensures r.code == 0 ==> r.report in {SetupRan, Success}
  {
    var cmd := ConvCmdStrId(args[1]);
    if cmd == Bit(0) then Outcome(0, SetupRan, State(gitInit(ready.fs), ready.manifest))
    else if cmd == Bit(4) then Manage(args, env, ready, f)
    else if cmd == Bit(6) then CmdLink(args, env, ready, f)
    else Outcome(1, UnknownCommand, ready)
  }

  /** The commands the name table knows but `main` does not dispatch are
      rejected exactly like an unknown word, after bootstrap. */
  lemma StubCommandsRejected(args: seq<string>, env: Env, st: State, f: Faults,
                             gitInit: FileSystem -> FileSystem)
    requires |args| >= 2 && args[1] in {"pull", "push", "commit", "unmanage", "status"}
    requires InitFiles(env, st.fs, f).code == 0
    ensures ConvCmdStrId(args[1]) != -1
    ensures Main(args, env, st, f, gitInit)
            == Outcome(1, UnknownCommand, State(InitFiles(env, st.fs, f).fs, st.manifest))
  {
  }

  /** `main manage ...` after a successful bootstrap is `manage` on the
      bootstrapped filesystem. */
  lemma MainRunsManage(args: seq<string>, env: Env, st: State, f: Faults,
                       gitInit: FileSystem -> FileSystem)
    requires |args| >= 2 && args[1] == "manage"
    requires InitFiles(env, st.fs, f).code == 0
    ensures HomeSet(env)
    ensures Main(args, env, st, f, gitInit)
            == Manage(args, env, State(InitFiles(env, st.fs, f).fs, st.manifest), f)
  {
  }

  /** `main` succeeds on a command that changes links only when the manifest
      grew: every successful `manage` or `link` leaves a record. */
  lemma MainSuccessRecords(args: seq<string>, env: Env, st: State,
                           gitInit: FileSystem -> FileSystem)
    requires |args| >= 4 && args[1] in {"manage", "link"}
    requires Main(args, env, st, NoFaults, gitInit).code == 0
    ensures var r := Main(args, env, st, NoFaults, gitInit);
            r.st.manifest == st.manifest
              + Manifest.EntryLine(if args[1] == "manage" then Manifest.Entry(args[2], args[3])
                                   else Manifest.Entry(args[3], args[2]))
  {
  }
}

=== FILE: injected.dfy ===
/** What the operating system does to one run of the C program beyond what
    the filesystem value decides: which syscalls fail, and how. */
module Injected {
  import opened Options
  import opened Posix

  datatype Faults = Faults(
    mkdir: Option<Fault>,           // mkdir of the application directory
    configOpen: Option<Fault>,      // fopen(config.toml, "w")
    configAccepted: Option<nat>,    // characters of the default content the stream takes before a write error
    configCloseFails: bool,         // fclose(config.toml) reports an error
    rename: Option<Fault>,          // rename(src, repository member)
    symlink: Option<Fault>,         // symlink(target, link)
    manifestOpen: Option<Fault>,    // fopen(known_links.toml, "a")
    manifestAccepted: Option<nat>)  // characters of the manifest line the stream takes before a write error

  /** A run in which every syscall does what the filesystem value decides. */
  const NoFaults: Faults := Faults(None, None, None, false, None, None, None, None)

  /** A write error cut the text short: the stream took fewer characters
      than the text has. */
  predicate ShortWrite(s: string, accepted: Option<nat>)
  {
    accepted.Some? && accepted.value < |s|
  }

  /** What reaches a file when a stream takes only `accepted` characters of
      `s` (all of them when no write error occurs). */
  function Accepted(s: string, accepted: Option<nat>): (r: string)
    ensures r <= s
    ensures r == s <==> !ShortWrite(s, accepted)
  {
    match accepted
    case None => s
    case Some(n) => if n < |s| then s[..n] else s
  }
}

=== FILE: link_error.dfy ===
/**
  `LinkCreationError` of src/main.rs and the text its `Display` writes. An
  I/O error carries the `io::Error` of the failing call; every such error in
  `create_link` comes from a syscall, so it always has an OS error code, and
  it is modelled by its errno.
*/
module LinkError {
  import opened Options
  import opened Posix
  import Manifest

  datatype LinkCreationError =
    | IOError(msg: string, err: Errno)
    | TargetNotExists
    | SymlinkPathIsDir
    | SymlinkPathIsNotDirOrSymlink

  const TargetNotExistsText: string := "Target file not exists"
  const SymlinkPathIsDirText: string := "Symlink path is a directory"
  // written in two pieces only because the verifier handles long literals slowly
  const SymlinkPathIsNotDirOrSymlinkText: string :=
    "Symlink path is not either " + "directory or symbolic link"
  const IOErrorPrefix: string := "IO error: "
  const OsErrorPrefix: string := " (OS error: "

  /** The `Debug` name of the `io::ErrorKind` Rust's standard library assigns
      to each errno on Linux, as the toolchains that have the `io_error_more`
      kinds (added in 2021; most stabilised in Rust 1.83) name them. Earlier
      toolchains print `Other` for `CrossesDevices` and the last five errnos
      below. */
  function KindName(e: Errno): (r: string)
    ensures |r| > 0 && ' ' !in r && ':' !in r
  {
    match e
    case ENOENT => "NotFound"
    case EACCES => "PermissionDenied"
    case EEXIST => "AlreadyExists"
    case EXDEV => "CrossesDevices"
    case ENOTDIR => "NotADirectory"
    case EISDIR => "IsADirectory"
    case ENOSPC => "StorageFull"
    case EROFS => "ReadOnlyFilesystem"
    case ELOOP => "FilesystemLoop"
  }

  /** The errno a kind name stands for: the inverse of `KindName`. */
  function ErrnoOfKind(k: string): (r: Option<Errno>)
    ensures r.Some? ==> KindName(r.value) == k
  {
    if k == "NotFound" then Some(ENOENT)
    else if k == "PermissionDenied" then Some(EACCES)
    else if k == "AlreadyExists" then Some(EEXIST)
    else if k == "CrossesDevices" then Some(EXDEV)
    else if k == "NotADirectory" then Some(ENOTDIR)
    else if k == "IsADirectory" then Some(EISDIR)
    else if k == "StorageFull" then Some(ENOSPC)
    else if k == "ReadOnlyFilesystem" then Some(EROFS)
    else if k == "FilesystemLoop" then Some(ELOOP)
    else None
  }

  lemma KindNameRoundTrip(e: Errno)
    ensures ErrnoOfKind(KindName(e)) == Some(e)
  {
  }

  /** Decimal digits of `n`, as `{}` formats an integer. */
  function Decimal(n: nat): (r: string)
    ensures |r| > 0
    ensures forall i :: 0 <= i < |r| ==> '0' <= r[i] <= '9'
  {
    if n < 10 then [DigitChar(n)] else Decimal(n / 10) + [DigitChar(n % 10)]
  }

  function DigitChar(d: nat): (c: char)
    requires d < 10
    ensures '0' <= c <= '9'
  {
    ('0' as int + d) as char
  }

  /** Reads back what `Decimal` writes. */
  function DecimalValue(s: string): (n: nat)
    requires forall i :: 0 <= i < |s| ==> '0' <= s[i] <= '9'
  {
    if s == [] then 0
    else 10 * DecimalValue(s[..|s| - 1]) + (s[|s| - 1] as int - '0' as int)
  }

  lemma {:induction false} DecimalRoundTrip(n: nat)
    ensures DecimalValue(Decimal(n)) == n
  {
    if n >= 10 {
      var s := Decimal(n);
      assert s[..|s| - 1] == Decimal(n / 10);
      DecimalRoundTrip(n / 10);
    }
  }

  /** What follows the message of an I/O error: the kind and the OS code. */
  function KindSuffix(err: Errno): string
  {
    KindName(err) + OsErrorPrefix + Decimal(err.Code()) + ")"
  }

  /** Whether a text starts with the prefix of the I/O error text. */
  predicate HasIOErrorPrefix(s: string)
  {
    |IOErrorPrefix| <= |s| && s[..|IOErrorPrefix|] == IOErrorPrefix
  }

  lemma FixedTextsUnprefixed()
    ensures !HasIOErrorPrefix(TargetNotExistsText)
    ensures !HasIOErrorPrefix(SymlinkPathIsDirText)
    ensures !HasIOErrorPrefix(SymlinkPathIsNotDirOrSymlinkText)
  {
    assert IOErrorPrefix[0] == 'I' && TargetNotExistsText[0] == 'T';
    assert SymlinkPathIsDirText[0] == 'S' && SymlinkPathIsNotDirOrSymlinkText[0] == 'S';
  }

  /** `impl fmt::Display for LinkCreationError`. The three fixed texts never
      start like an I/O error, and an I/O error always carries its message. */
  function Display(e: LinkCreationError): (r: string)
    ensures e.IOError? <==> HasIOErrorPrefix(r)
    ensures e.IOError? ==> && |IOErrorPrefix| + |e.msg| <= |r|
                           && r[|IOErrorPrefix|..|IOErrorPrefix| + |e.msg|] == e.msg
  {
    FixedTextsUnprefixed();
    match e
    case TargetNotExists => TargetNotExistsText
    case SymlinkPathIsDir => SymlinkPathIsDirText
    case SymlinkPathIsNotDirOrSymlink => SymlinkPathIsNotDirOrSymlinkText
    case IOError(msg, err) => IOErrorPrefix + (msg + ": " + KindSuffix(err))
  }

  /** Splits `msg + ": " + tail` at the first colon. */
  function SplitMessage(rest: string): (r: Option<(string, string)>)
    ensures r.Some? ==> rest == r.value.0 + ": " + r.value.1 && ':' !in r.value.0
  {
    var i := Manifest.Find(rest, ':');
    if i + 2 > |rest| || rest[i + 1] != ' ' then None
    else
      assert rest == rest[..i] + ": " + rest[i + 2..] by {
        assert rest[i..i + 2] == ": ";
        assert rest == rest[..i] + rest[i..i + 2] + rest[i + 2..];
      }
      Some((rest[..i], rest[i + 2..]))
  }

  lemma SplitMessageOf(msg: string, tail: string)
    requires ':' !in msg
    ensures SplitMessage(msg + ": " + tail) == Some((msg, tail))
  {
    var rest := msg + ": " + tail;
    Manifest.FindIs(rest, ':', |msg|);
    assert rest[..|msg|] == msg;
    assert rest[|msg| + 2..] == tail;
  }

  /** Reads the kind and the OS code back; the kind ends at the first space. */
  function ParseKindSuffix(tail: string): (r: Option<Errno>)
    ensures r.Some? ==> tail == KindSuffix(r.value)
  {
    var j := Manifest.Find(tail, ' ');
    match ErrnoOfKind(tail[..j])
    case None => None
    case Some(err) =>
      if tail[j..] != OsErrorPrefix + Decimal(err.Code()) + ")" then None
      else
        assert tail == tail[..j] + tail[j..];
        Some(err)
  }

  lemma ParseKindSuffixOf(err: Errno)
    ensures ParseKindSuffix(KindSuffix(err)) == Some(err)
  {
    var tail := KindSuffix(err);
    var k := KindName(err);
    assert tail == k + (OsErrorPrefix + Decimal(err.Code()) + ")");
    assert tail[|k|] == ' ';
    Manifest.FindIs(tail, ' ', |k|);
    assert tail[..|k|] == k;
    KindNameRoundTrip(err);
  }

  /** Reads an error back from its text; `None` for text `Display` does not
      write. An I/O message holding a colon cannot be told apart from the
      kind that follows it, so the reader takes the message to end at the
      first colon. */
  function ParseDisplay(s: string): (r: Option<LinkCreationError>)
    ensures r.Some? ==> Display(r.value) == s
  {
    if s == TargetNotExistsText then Some(TargetNotExists)
    else if s == SymlinkPathIsDirText then Some(SymlinkPathIsDir)
    else if s == SymlinkPathIsNotDirOrSymlinkText then Some(SymlinkPathIsNotDirOrSymlink)
    else if |s| < |IOErrorPrefix| || s[..|IOErrorPrefix|] != IOErrorPrefix then None
    else
      var rest := s[|IOErrorPrefix|..];
      assert s == IOErrorPrefix + rest;
      match SplitMessage(rest)
      case None => None
      case Some((msg, tail)) =>
        match ParseKindSuffix(tail)
        case None => None
        case Some(err) => Some(IOError(msg, err))
  }

  /** The three fixed texts and the I/O texts are pairwise different, told
      apart by their first characters and lengths. */
  lemma FixedTextsDiffer(msg: string, err: Errno)
    ensures Display(IOError(msg, err))[0] == 'I'
    ensures TargetNotExistsText[0] == 'T'
    ensures SymlinkPathIsDirText[0] == 'S' && SymlinkPathIsNotDirOrSymlinkText[0] == 'S'
    ensures SymlinkPathIsDirText != SymlinkPathIsNotDirOrSymlinkText
  {
    assert |SymlinkPathIsDirText| == 27;
  }

  /** Every error whose message holds no colon is recovered from its text:
      `Display` loses nothing, so two such errors print differently. */
  lemma DisplayRoundTrip(e: LinkCreationError)
    requires e.IOError? ==> ':' !in e.msg
    ensures ParseDisplay(Display(e)) == Some(e)
  {
    match e
    case IOError(msg, err) =>
      var rest := msg + ": " + KindSuffix(err);
      var s := IOErrorPrefix + rest;
      FixedTextsDiffer(msg, err);
      assert s[..|IOErrorPrefix|] == IOErrorPrefix;
      assert s[|IOErrorPrefix|..] == rest;
      SplitMessageOf(msg, KindSuffix(err));
      ParseKindSuffixOf(err);
    case TargetNotExists =>
    case SymlinkPathIsDir =>
      FixedTextsDiffer("", EEXIST);
    case SymlinkPathIsNotDirOrSymlink =>
      FixedTextsDiffer("", EEXIST);
  }

  /** The texts the unit tests compare against. */
  lemma DisplayTexts()
    ensures Display(TargetNotExists) == "Target file not exists"
    ensures Display(SymlinkPathIsDir) == "Symlink path is a directory"
    ensures Display(SymlinkPathIsNotDirOrSymlink)
            == "Symlink path is not either directory or symbolic link"
  {
    assert Display(TargetNotExists) == TargetNotExistsText;
    assert Display(SymlinkPathIsDir) == SymlinkPathIsDirText;
    LongFixedText();
  }

  lemma LongFixedText()
    ensures Display(SymlinkPathIsNotDirOrSymlink)
            == "Symlink path is not either directory or symbolic link"
  {
    assert Display(SymlinkPathIsNotDirOrSymlink) == SymlinkPathIsNotDirOrSymlinkText;
  }

  /** The text of a symlink call that finds its path taken. */
  lemma DisplayAlreadyExists()
    ensures Display(IOError("Failed to create symlink", EEXIST))
            == "IO error: " + "Failed to create symlink" + ": " + "AlreadyExists (OS error: 17)"
  {
    AlreadyExistsSuffix();
  }

  lemma AlreadyExistsSuffix()
    ensures KindSuffix(EEXIST) == "AlreadyExists (OS error: 17)"
  {
    DecimalSeventeen();
    assert KindSuffix(EEXIST) == "AlreadyExists" + " (OS error: " + "17" + ")";
  }

  lemma DecimalSeventeen()
    ensures Decimal(17) == "17"
  {
    assert DigitChar(1) == '1' && DigitChar(7) == '7';
    assert Decimal(1) == ['1'];
    assert 17 / 10 == 1 && 17 % 10 == 7;
  }
}

=== FILE: manifest.dfy ===
/**
  The manifest `known_links.toml` (confshelf.c `insert_known_links`): an
  append-only text file with one line per recorded link,

      "<link path>" = "<repository member name>"

  a key/value pair of TOML v1.0.0 with a quoted key (sections "Keys" and
  "String", basic strings). The C code writes both strings verbatim, with no
  escaping. The reader below accepts exactly the lines whose two strings need
  no escape, which makes it the inverse of the writer on such entries.
*/
module Manifest {
  import opened Options
  import opened Posix
  import opened Paths
  import opened Injected

  /** One recorded link: where the symbolic link is, and the bare name of the
      repository member it points at. */
  datatype Entry = Entry(link: Path, name: string)

  /** A character a TOML basic string may hold unescaped: anything except the
      quotation mark, the backslash and the control characters other than tab. */
  predicate IsUnescaped(c: char)
  {
    c != '"' && c != '\\' && (c == '\t' || (' ' <= c && c as int != 0x7F))
  }

  predicate NeedsNoEscape(s: string)
  {
    forall i :: 0 <= i < |s| ==> IsUnescaped(s[i])
  }

  /** An entry the unescaped writer renders as valid TOML. */
  predicate Clean(e: Entry)
  {
    NeedsNoEscape(e.link) && NeedsNoEscape(e.name)
  }

  /** The line `fprintf(known_links_file, "\"%s\" = \"%s\"\n", ...)` writes. */
  function EntryLine(e: Entry): string
  {
    "\"" + e.link + "\" = \"" + e.name + "\"\n"
  }

  /** The text of a manifest holding `es`, oldest first. */
  function Render(es: seq<Entry>): string
  {
    if es == [] then "" else EntryLine(es[0]) + Render(es[1..])
  }

  /** Number of lines: newline characters in the text. */
  function LineCount(text: string): nat
  {
    multiset(text)['\n']
  }

  /** Index of the first `c` in `s`, or `|s|` when there is none. */
  function Find(s: string, c: char): (i: nat)
    ensures i <= |s|
    ensures i < |s| ==> s[i] == c
    ensures forall j :: 0 <= j < i ==> s[j] != c
  {
    if s == [] then 0
    else if s[0] == c then 0
    else 1 + Find(s[1..], c)
  }

  lemma FindIs(s: string, c: char, i: nat)
    requires i < |s| && s[i] == c
    requires forall j :: 0 <= j < i ==> s[j] != c
    ensures Find(s, c) == i
  {
  }

  /** Reads a quoted string at the front of `s`: the text up to the next
      quotation mark, and what follows the closing one. */
  function ParseQuoted(s: string): (r: Option<(string, string)>)
    ensures r.Some? ==> s == "\"" + r.value.0 + "\"" + r.value.1
  {
    if |s| == 0 || s[0] != '"' then None
    else
      var k := Find(s[1..], '"');
      if k == |s| - 1 then None
      else
        assert s == [s[0]] + s[1..1 + k] + [s[1 + k]] + s[2 + k..];
        Some((s[1..1 + k], s[2 + k..]))
  }

  /** Reads the first line of `text`; yields the entry and the text after it. */
  function ParseLine(text: string): (r: Option<(Entry, string)>)
    ensures r.Some? ==> Clean(r.value.0) && text == EntryLine(r.value.0) + r.value.1
    ensures r.Some? ==> |r.value.1| < |text|
  {
    match ParseQuoted(text)
    case None => None
    case Some((link, afterKey)) =>
      if |afterKey| < 3 || afterKey[..3] != " = " then None
      else
        match ParseQuoted(afterKey[3..])
        case None => None
        case Some((name, afterValue)) =>
          if |afterValue| == 0 || afterValue[0] != '\n' then None
          else if !Clean(Entry(link, name)) then None
          else
            var rest := afterValue[1..];
            assert text == EntryLine(Entry(link, name)) + rest by {
              LineShape(link, name, afterKey, afterValue, rest);
            }
            Some((Entry(link, name), rest))
  }

  lemma LineShape(link: string, name: string, afterKey: string, afterValue: string, rest: string)
    requires |afterKey| >= 3 && afterKey[..3] == " = "
    requires afterKey[3..] == "\"" + name + "\"" + afterValue
    requires afterValue == "\n" + rest
    ensures "\"" + link + "\"" + afterKey == EntryLine(Entry(link, name)) + rest
  {
    assert afterKey == " = " + afterKey[3..];
    assert "\" = \"" == "\"" + " = " + "\"";
    assert "\"\n" == "\"" + "\n";
  }

  /** Every entry is one the writer renders as valid TOML. */
  predicate AllClean(es: seq<Entry>)
  {
    forall i :: 0 <= i < |es| ==> Clean(es[i])
  }

  /** Reads a whole manifest; `None` when some line is not of the written shape. */
  function Parse(text: string): (r: Option<seq<Entry>>)
    ensures r.Some? ==> Render(r.value) == text && AllClean(r.value)
    decreases |text|
  {
    if text == [] then Some([])
    else
      match ParseLine(text)
      case None => None
      case Some((e, rest)) =>
        match Parse(rest)
        case None => None
        case Some(es) =>
          ParsedCons(e, es, rest, text);
          Some([e] + es)
  }

  lemma ParsedCons(e: Entry, es: seq<Entry>, rest: string, text: string)
    requires text == EntryLine(e) + rest && Render(es) == rest
    requires Clean(e) && AllClean(es)
    ensures Render([e] + es) == text && AllClean([e] + es)
  {
    assert ([e] + es)[1..] == es;
    assert forall i :: 1 <= i < |es| + 1 ==> ([e] + es)[i] == es[i - 1];
  }

  /** The reader recovers a written line exactly. */
  lemma ParseLineOfEntry(e: Entry, rest: string)
    requires Clean(e)
    ensures ParseLine(EntryLine(e) + rest) == Some((e, rest))
  {
    var tail := "\n" + rest;
    var afterKey := " = " + ("\"" + e.name + "\"" + tail);
    EntryLineSplit(e, rest, afterKey);
    ParseQuotedOf(e.link, afterKey);
    assert afterKey[..3] == " = ";
    assert afterKey[3..] == "\"" + e.name + "\"" + tail;
    ParseQuotedOf(e.name, tail);
  }

  lemma EntryLineSplit(e: Entry, rest: string, afterKey: string)
    requires afterKey == " = " + ("\"" + e.name + "\"" + ("\n" + rest))
    ensures EntryLine(e) + rest == "\"" + e.link + "\"" + afterKey
  {
    assert "\" = \"" == "\"" + " = " + "\"";
    assert "\"\n" == "\"" + "\n";
  }

  lemma ParseQuotedOf(x: string, rest: string)
    requires '"' !in x
    ensures ParseQuoted("\"" + x + "\"" + rest) == Some((x, rest))
  {
    var s := "\"" + x + "\"" + rest;
    assert s[1..] == x + "\"" + rest;
    FindIs(s[1..], '"', |x|);
    assert s[1..1 + |x|] == x;
    assert s[2 + |x|..] == rest;
  }

  /** Render then Parse is the identity on entries the writer renders as
      valid TOML. */
  lemma {:induction false} ParseRender(es: seq<Entry>)
    requires AllClean(es)
    ensures Parse(Render(es)) == Some(es)
  {
    if es != [] {
      var text := Render(es);
      assert text == EntryLine(es[0]) + Render(es[1..]);
      assert text != [] by { assert |EntryLine(es[0])| > 0; }
      ParseLineOfEntry(es[0], Render(es[1..]));
      ParseRender(es[1..]);
      assert [es[0]] + es[1..] == es;
    }
  }

  lemma {:induction false} RenderAppend(es: seq<Entry>, e: Entry)
    ensures Render(es + [e]) == Render(es) + EntryLine(e)
  {
    if es != [] {
      assert (es + [e])[1..] == es[1..] + [e];
      RenderAppend(es[1..], e);
    }
  }

  /** Appending a written line to a readable manifest adds exactly that
      entry at the end and disturbs none of the earlier ones. */
  lemma AppendEntry(text: string, e: Entry)
    requires Parse(text).Some?
    requires Clean(e)
    ensures Parse(text + EntryLine(e)) == Some(Parse(text).value + [e])
  {
    var es := Parse(text).value;
    RenderAppend(es, e);
    ParseRender(es + [e]);
  }

  /** A written line holds exactly one newline when its strings hold none. */
  lemma EntryLineIsOneLine(e: Entry)
    requires '\n' !in e.link && '\n' !in e.name
    ensures LineCount(EntryLine(e)) == 1
  {
    assert multiset(EntryLine(e)) == multiset("\"") + multiset(e.link) + multiset("\" = \"")
      + multiset(e.name) + multiset("\"\n");
  }

  /** Without escaping, a quotation mark in a path makes two different
      entries write the same line, so the manifest cannot tell them apart. */
  lemma UnescapedQuoteCollides()
    ensures EntryLine(Entry("a\" = \"b", "c")) == EntryLine(Entry("a", "b\" = \"c"))
    ensures Entry("a\" = \"b", "c") != Entry("a", "b\" = \"c")
  {
  }

  /** Why a manifest append did not happen. */
  datatype ManifestError =
    | HomeNotSet                            // get_known_links_file_path gave NULL
    | OpenFailed(path: Path, errno: Errno)  // fopen(path, "a") gave NULL

  datatype AppendResult = AppendResult(code: int, error: Option<ManifestError>, manifest: string)

  /** `insert_known_links`. `openFault` is the reason fopen fails, if it does.
      `accepted` is how many characters the stream takes before a write error
      (a full disk), if one occurs: the C code never checks the fprintf or
      fclose result, so such an error still returns 0. */
  function InsertKnownLinks(env: Env, manifest: string, link: Path, name: string,
                            openFault: Option<Fault>, accepted: Option<nat>): (r: AppendResult)
    ensures r.code == 0 || r.code == 1
    ensures r.code == 0 <==> r.error.None?
    ensures r.code == 0 <==> HomeSet(env) && openFault.None?
    ensures !HomeSet(env) ==> r.error == Some(HomeNotSet)
    ensures r.code != 0 ==> r.manifest == manifest
    ensures manifest <= r.manifest
    ensures r.code == 0 && accepted.None? ==> r.manifest == manifest + EntryLine(Entry(link, name))
    ensures r.code == 0 && accepted.Some? ==> r.manifest <= manifest + EntryLine(Entry(link, name))
  {
    match KnownLinksPath(env)
    case None => AppendResult(1, Some(HomeNotSet), manifest)
    case Some(path) =>
      if openFault.Some? then AppendResult(1, Some(OpenFailed(path, openFault.value)), manifest)
      else
        var line := EntryLine(Entry(link, name));
        var written := Accepted(line, accepted);
        assert manifest + written <= manifest + line by {
          assert line == written + line[|written|..];
        }
        AppendResult(0, None, manifest + written)
  }

  /** A successful, complete append records the pair as the newest entry of a
      readable manifest. */
  lemma InsertKnownLinksRecords(env: Env, manifest: string, link: Path, name: string,
                                openFault: Option<Fault>)
    requires Parse(manifest).Some?
    requires Clean(Entry(link, name))
    requires HomeSet(env) && openFault.None?
    ensures Parse(InsertKnownLinks(env, manifest, link, name, openFault, None).manifest)
            == Some(Parse(manifest).value + [Entry(link, name)])
  {
    AppendEntry(manifest, Entry(link, name));
  }

  /** The line of the "/home/u/.vimrc" example. */
  lemma ExampleLine()
    ensures EntryLine(Entry("/home/u/.vimrc", "vimrc")) == "\"/home/u/.vimrc\" = \"vimrc\"\n"
  {
  }
}

=== FILE: options.dfy ===
/** The optional value used throughout the model: a C `NULL` return, an unset
    environment variable, or an absent syscall fault. */
module Options {

  datatype Option<+T> = None | Some(value: T)
}

=== FILE: paths.dfy ===
/**
  Path building in confshelf.c: every location of the application is the
  value of `HOME`, then "/.confshelf/", then a suffix, joined by plain string
  concatenation (no separator handling, no normalisation).
*/
module Paths {
  import opened Options
  import opened Posix

  /** The process environment as far as path building reads it. */
  datatype Env = Env(home: Option<string>)

  const Middle: string := "/.confshelf/"
  const RepoSuffix: string := "repo/"
  const ConfigSuffix: string := "config.toml"
  const KnownLinksSuffix: string := "known_links.toml"

  predicate HomeSet(env: Env)
  {
    env.home.Some?
  }

  /** `get_app_dir`: `NULL` when `HOME` is unset, otherwise a buffer holding
      exactly the three parts (allocation failure is not modelled). */
  function AppDir(env: Env, suffix: string): (r: Option<Path>)
    ensures r.None? <==> !HomeSet(env)
    ensures r.Some? ==> |r.value| == |env.home.value| + |Middle| + |suffix|
    ensures r.Some? ==> StripAppDir(env, r.value) == Some(suffix)
  {
    match env.home
    case None => None
    case Some(home) =>
      var r := home + Middle + suffix;
      assert r[..|home| + |Middle|] == home + Middle;
      Some(r)
  }

  /** The inverse of `AppDir`: the suffix of a path under the application
      directory, or `None` for a path outside it. */
  function StripAppDir(env: Env, p: Path): (r: Option<string>)
  {
    match env.home
    case None => None
    case Some(home) =>
      var n := |home| + |Middle|;
      if n <= |p| && p[..n] == home + Middle then Some(p[n..]) else None
  }

  /** `get_repo_dir_path`: "$HOME/.confshelf/repo/", with its trailing slash. */
  function RepoDirPath(env: Env): (r: Option<Path>)
    ensures r.None? <==> !HomeSet(env)
    ensures r.Some? ==> r.value == env.home.value + "/.confshelf/repo/"
  {
    assert Middle + RepoSuffix == "/.confshelf/repo/";
    AppDir(env, RepoSuffix)
  }

  /** `get_config_file_path`: "$HOME/.confshelf/config.toml". */
  function ConfigPath(env: Env): (r: Option<Path>)
    ensures r.None? <==> !HomeSet(env)
    ensures r.Some? ==> r.value == env.home.value + "/.confshelf/config.toml"
  {
    assert Middle + ConfigSuffix == "/.confshelf/config.toml";
    AppDir(env, ConfigSuffix)
  }

  /** `get_known_links_file_path`: "$HOME/.confshelf/known_links.toml". */
  function KnownLinksPath(env: Env): (r: Option<Path>)
    ensures r.None? <==> !HomeSet(env)
    ensures r.Some? ==> r.value == env.home.value + "/.confshelf/known_links.toml"
  {
    assert Middle + KnownLinksSuffix == "/.confshelf/known_links.toml";
    AppDir(env, KnownLinksSuffix)
  }

  /** `get_path_relative_to_repo_dir`: the repository directory with `name`
      appended. With `HOME` unset the C code passes `NULL` to `strlen`, so
      callers must have `HOME`. */
  function PathInRepo(env: Env, name: string): (r: Path)
    requires HomeSet(env)
    ensures Some(r) == AppDir(env, RepoSuffix + name)
    ensures |r| == |env.home.value| + |Middle| + |RepoSuffix| + |name|
  {
    assert RepoDirPath(env).value + name == env.home.value + Middle + (RepoSuffix + name);
    RepoDirPath(env).value + name
  }

  /** Distinct suffixes give distinct paths: `AppDir` loses no information. */
  lemma AppDirInjective(env: Env, s1: string, s2: string)
    requires HomeSet(env)
    requires AppDir(env, s1) == AppDir(env, s2)
    ensures s1 == s2
  {
    assert StripAppDir(env, AppDir(env, s1).value) == Some(s1);
  }

  /** Two repository members with different names never share a path, so
      managing one cannot clobber the other. */
  lemma RepoPathsDistinct(env: Env, n1: string, n2: string)
    requires HomeSet(env)
    requires n1 != n2
    ensures PathInRepo(env, n1) != PathInRepo(env, n2)
  {
    var s1, s2 := RepoSuffix + n1, RepoSuffix + n2;
    assert s1[|RepoSuffix|..] == n1 && s2[|RepoSuffix|..] == n2;
    assert StripAppDir(env, AppDir(env, s1).value) == Some(s1);
    assert StripAppDir(env, AppDir(env, s2).value) == Some(s2);
  }

  /** No repository member is ever the manifest or the configuration file:
      their suffixes differ from "repo/..." in the first character. */
  lemma RepoPathIsNotBookkeeping(env: Env, name: string)
    requires HomeSet(env)
    ensures PathInRepo(env, name) != KnownLinksPath(env).value
    ensures PathInRepo(env, name) != ConfigPath(env).value
  {
    var rp := RepoSuffix + name;
    assert rp[0] == 'r' && KnownLinksSuffix[0] == 'k' && ConfigSuffix[0] == 'c';
    assert StripAppDir(env, AppDir(env, rp).value) == Some(rp);
    assert StripAppDir(env, AppDir(env, KnownLinksSuffix).value) == Some(KnownLinksSuffix);
    assert StripAppDir(env, AppDir(env, ConfigSuffix).value) == Some(ConfigSuffix);
  }

  /** The repository member of the example home directory "/home/u". */
  lemma ExampleRepoPath()
    ensures PathInRepo(Env(Some("/home/u")), "vimrc") == "/home/u/.confshelf/repo/vimrc"
  {
  }

  /** The manifest of the example home directory. */
  lemma ExampleKnownLinksPath()
    ensures KnownLinksPath(Env(Some("/home/u"))) == Some("/home/u/.confshelf/known_links.toml")
  {
    var p := "/home/u" + Middle + KnownLinksSuffix;
    assert KnownLinksPath(Env(Some("/home/u"))) == Some(p);
    assert |p| == 35;
    assert forall i :: 0 <= i < 35 ==> p[i] == "/home/u/.confshelf/known_links.toml"[i];
    assert p == "/home/u/.confshelf/known_links.toml";
  }
}

=== FILE: posix.dfy ===
/**
  An abstract Linux filesystem as an immutable value: the POSIX calls, with
  the errors and errno numbers Linux gives them.

  A filesystem maps each path that has an entry to its node. Paths are opaque
  strings: there is no normalisation, no relative-target resolution and no
  tracking of which directory holds which entry. Queries come in the two
  flavours the programs use: `Stat` follows symbolic links (stat(2),
  Rust's `Path::exists`), `Lstat` does not (lstat(2), `fs::symlink_metadata`).

  Every mutating syscall takes an optional injected `Fault`: the reasons a real
  call fails that the abstract state cannot predict (permissions, a full disk,
  a missing parent directory, a read-only mount, a rename across mounts).
  Errors the state does determine (an existing entry, a directory in the way,
  a symlink loop) are produced by the state alone.
*/
module Posix {
  import opened Options

  type Path = string

  datatype Node = File(content: string) | Dir | Symlink(target: Path)

  type FileSystem = map<Path, Node>

  /** The errno values the model distinguishes. */
  datatype Errno = ENOENT | EACCES | EEXIST | EXDEV | ENOTDIR | EISDIR | ENOSPC | EROFS | ELOOP
  {
    /** The Linux numbering of the errno constant. */
    function Code(): nat
    {
      match this
      case ENOENT => 2
      case EACCES => 13
      case EEXIST => 17
      case EXDEV => 18
      case ENOTDIR => 20
      case EISDIR => 21
      case ENOSPC => 28
      case EROFS => 30
      case ELOOP => 40
    }
  }

  /** A failure injected from outside the model. `EEXIST` is excluded: whether
      an entry exists is always read off the filesystem value. */
  type Fault = e: Errno | e != EEXIST witness EACCES

  /** The outcome of one mutating syscall. */
  datatype SysResult = Done(fs: FileSystem) | Fail(errno: Errno)

  /** Linux's MAXSYMLINKS: pathname resolution gives up with ELOOP once it
      would follow more symbolic links than this. */
  const MaxSymlinkHops: nat := 40

  /** Pathname resolution: follows symbolic links from `p`, at most `fuel` of
      them, and yields the first path of the chain that is not a symbolic link.
      That path may have no entry (a dangling chain). `None` is ELOOP. */
  function Follow(fs: FileSystem, p: Path, fuel: nat): (r: Option<Path>)
    ensures r.Some? ==> r.value !in fs || !fs[r.value].Symlink?
    ensures (p !in fs || !fs[p].Symlink?) ==> r == Some(p)
    decreases fuel
  {
    if p in fs && fs[p].Symlink? then
      if fuel == 0 then None else Follow(fs, fs[p].target, fuel - 1)
    else
      Some(p)
  }

  /** stat(2): the node reached by resolving `p`, or `None` when `p` is
      missing, dangles or loops. Never a symbolic link. */
  function Stat(fs: FileSystem, p: Path): (r: Option<Node>)
    ensures r.Some? ==> !r.value.Symlink?
    ensures p !in fs ==> r.None?
    ensures p in fs && !fs[p].Symlink? ==> r == Some(fs[p])
  {
    match Follow(fs, p, MaxSymlinkHops)
    case None => None
    case Some(q) => if q in fs then Some(fs[q]) else None
  }

  /** A symbolic link to itself never resolves, however much fuel there is. */
  lemma {:induction false} FollowSelfLink(fs: FileSystem, p: Path, fuel: nat)
    requires p in fs && fs[p] == Symlink(p)
    ensures Follow(fs, p, fuel).None?
    decreases fuel
  {
    if fuel > 0 {
      FollowSelfLink(fs, p, fuel - 1);
    }
  }

  /** `stat(path) == 0`, and equally Rust's `Path::exists`: the path has an
      entry, and a symbolic link must lead somewhere. */
  predicate PathExists(fs: FileSystem, p: Path)
    ensures PathExists(fs, p) ==> p in fs
    ensures p in fs && !fs[p].Symlink? ==> PathExists(fs, p)
    ensures p in fs && fs[p].Symlink? && fs[p].target !in fs ==> !PathExists(fs, p)
  {
    Stat(fs, p).Some?
  }

  /** A looping link "does not exist": stat(2) gives ELOOP. */
  lemma SelfLinkDoesNotExist(fs: FileSystem, p: Path)
    requires p in fs && fs[p] == Symlink(p)
    ensures !PathExists(fs, p)
    ensures Lstat(fs, p) == Some(Symlink(p))
  {
    FollowSelfLink(fs, p, MaxSymlinkHops);
  }

  /** lstat(2): the entry at `p` itself, a symbolic link left unfollowed. */
  function Lstat(fs: FileSystem, p: Path): (r: Option<Node>)
    ensures r.Some? <==> p in fs
    ensures r.Some? ==> r.value == fs[p]
    // it agrees with stat(2) on every entry that is not a link, and sees
    // every path stat(2) sees
    ensures r.Some? && !r.value.Symlink? ==> Stat(fs, p) == r
    ensures Stat(fs, p).Some? ==> r.Some?
  {
    if p in fs then Some(fs[p]) else None
  }

  /** `S_ISREG` of the followed status. */
  predicate IsRegularFile(fs: FileSystem, p: Path)
    ensures IsRegularFile(fs, p) ==> PathExists(fs, p)
    ensures p in fs && fs[p].File? ==> IsRegularFile(fs, p)
    ensures p in fs && fs[p].Dir? ==> !IsRegularFile(fs, p)
  {
    Stat(fs, p).Some? && Stat(fs, p).value.File?
  }

  /** Everything outside `ps` has the same entry (or the same absence) in both. */
  ghost predicate SameExcept(a: FileSystem, b: FileSystem, ps: set<Path>)
  {
    forall q :: q !in ps ==> (q in a <==> q in b) && (q in a ==> a[q] == b[q])
  }

  /** The node at `from` now sits at `to`, `from` is gone, nothing else changed. */
  ghost predicate Moved(a: FileSystem, b: FileSystem, from: Path, to: Path)
  {
    && from in a
    && from !in b
    && to in b
    && b[to] == a[from]
    && SameExcept(a, b, {from, to})
  }

  /** rename(2). A directory at the destination always refuses, since the
      model does not know whether it is empty; renaming a path to itself does
      nothing. */
  function Rename(fs: FileSystem, from: Path, to: Path, fault: Option<Fault>): (r: SysResult)
    ensures r.Done? <==>
      from in fs && (from == to || (fault.None? && (to in fs ==> !fs[to].Dir? && !fs[from].Dir?)))
    ensures r.Done? && from == to ==> r.fs == fs
    ensures r.Done? && from != to ==> Moved(fs, r.fs, from, to)
    ensures from !in fs ==> r == Fail(ENOENT)
  {
    if from !in fs then Fail(ENOENT)
    else if from == to then Done(fs)
    else if to in fs && fs[to].Dir? then Fail(EISDIR)
    else if to in fs && fs[from].Dir? then Fail(ENOTDIR)
    else if fault.Some? then Fail(fault.value)
    else Done((fs - {from})[to := fs[from]])
  }

  /** symlink(2): creates `link` holding `target`. Fails with EEXIST when
      `link` has any entry at all, a dangling symbolic link included. */
  function MakeSymlink(fs: FileSystem, target: Path, link: Path, fault: Option<Fault>): (r: SysResult)
    ensures link in fs ==> r == Fail(EEXIST)
    ensures r.Done? <==> link !in fs && fault.None?
    ensures r.Done? ==> link in r.fs && r.fs[link] == Symlink(target) && SameExcept(fs, r.fs, {link})
  {
    if link in fs then Fail(EEXIST)
    else if fault.Some? then Fail(fault.value)
    else Done(fs[link := Symlink(target)])
  }

  /** unlink(2), which Rust's `fs::remove_file` calls: removes a
      non-directory entry without following it. */
  function Unlink(fs: FileSystem, p: Path, fault: Option<Fault>): (r: SysResult)
    ensures p !in fs ==> r == Fail(ENOENT)
    ensures p in fs && fs[p].Dir? ==> r == Fail(EISDIR)
    ensures r.Done? <==> p in fs && !fs[p].Dir? && fault.None?
    ensures r.Done? ==> p !in r.fs && SameExcept(fs, r.fs, {p})
  {
    if p !in fs then Fail(ENOENT)
    else if fs[p].Dir? then Fail(EISDIR)
    else if fault.Some? then Fail(fault.value)
    else Done(fs - {p})
  }

  /** mkdir(2). Any entry at `p`, whatever its kind, gives EEXIST. */
  function Mkdir(fs: FileSystem, p: Path, fault: Option<Fault>): (r: SysResult)
    ensures p in fs ==> r == Fail(EEXIST)
    ensures r.Done? <==> p !in fs && fault.None?
    ensures r.Done? ==> p in r.fs && r.fs[p] == Dir && SameExcept(fs, r.fs, {p})
  {
    if p in fs then Fail(EEXIST)
    else if fault.Some? then Fail(fault.value)
    else Done(fs[p := Dir])
  }

  /** open(2) with O_CREAT|O_TRUNC followed by writing `content`: the file is
      created (or truncated) where resolving `p` ends, so a dangling link
      creates its target. */
  function CreateFile(fs: FileSystem, p: Path, content: string, fault: Option<Fault>): (r: SysResult)
    ensures r.Done? ==> Stat(r.fs, p) == Some(File(content))
    ensures r.Done? ==> Follow(fs, p, MaxSymlinkHops).Some?
                        && SameExcept(fs, r.fs, {Follow(fs, p, MaxSymlinkHops).value})
    ensures r.Done? <==> && fault.None?
                         && Follow(fs, p, MaxSymlinkHops).Some?
                         && !(Follow(fs, p, MaxSymlinkHops).value in fs
                              && fs[Follow(fs, p, MaxSymlinkHops).value].Dir?)
    ensures fault.Some? ==> r.Fail?
    ensures Follow(fs, p, MaxSymlinkHops).None? ==> r == Fail(ELOOP)
  {
    match Follow(fs, p, MaxSymlinkHops)
    case None => Fail(ELOOP)
    case Some(q) =>
      if q in fs && fs[q].Dir? then Fail(EISDIR)
      else if fault.Some? then Fail(fault.value)
      else
        FollowToUpdatedEnd(fs, p, MaxSymlinkHops, q, File(content));
        Done(fs[q := File(content)])
  }

  /** Replacing the node at the end of a resolution chain by another
      non-link node leaves the chain itself intact. */
  lemma {:induction false} FollowToUpdatedEnd(fs: FileSystem, p: Path, fuel: nat, q: Path, n: Node)
    requires Follow(fs, p, fuel) == Some(q)
    requires !n.Symlink?
    ensures Follow(fs[q := n], p, fuel) == Some(q)
    decreases fuel
  {
    if p != q {
      assert p in fs && fs[p].Symlink? && fuel > 0;
      FollowToUpdatedEnd(fs, fs[p].target, fuel - 1, q, n);
    }
  }

  /** Resolution only consults the symbolic links on its own chain: a change
      elsewhere does not affect it. */
  lemma {:induction false} FollowFrame(a: FileSystem, b: FileSystem, p: Path, fuel: nat, ps: set<Path>)
    requires SameExcept(a, b, ps)
    requires forall x :: x in ps ==> FollowAvoids(a, p, fuel, x)
    ensures Follow(a, p, fuel) == Follow(b, p, fuel)
    decreases fuel
  {
    if p in a && a[p].Symlink? && fuel > 0 {
      forall x | x in ps
        ensures FollowAvoids(a, a[p].target, fuel - 1, x)
      {
        assert FollowAvoids(a, p, fuel, x);
      }
      FollowFrame(a, b, a[p].target, fuel - 1, ps);
    }
  }

  /** The resolution of `p` within `fuel` hops never visits `x`. */
  ghost predicate FollowAvoids(fs: FileSystem, p: Path, fuel: nat, x: Path)
    decreases fuel
  {
    && p != x
    && (p in fs && fs[p].Symlink? && fuel > 0 ==> FollowAvoids(fs, fs[p].target, fuel - 1, x))
  }

  /** A chain that ends at an existing entry never passes through a path
      without an entry. */
  lemma {:induction false} FollowAvoidsAbsent(fs: FileSystem, p: Path, fuel: nat, x: Path)
    requires Follow(fs, p, fuel).Some? && Follow(fs, p, fuel).value in fs
    requires x !in fs
    ensures FollowAvoids(fs, p, fuel, x)
    decreases fuel
  {
    if p in fs && fs[p].Symlink? && fuel > 0 {
      FollowAvoidsAbsent(fs, fs[p].target, fuel - 1, x);
    }
  }

  /** A new symbolic link to a path that resolves with one hop to spare
      resolves to the same node. */
  lemma NewLinkResolves(a: FileSystem, b: FileSystem, link: Path, target: Path)
    requires link !in a
    requires link in b && b[link] == Symlink(target)
    requires SameExcept(a, b, {link})
    requires Follow(a, target, MaxSymlinkHops - 1).Some?
    requires Follow(a, target, MaxSymlinkHops - 1).value in a
    ensures Stat(b, link) == Stat(a, target)
    ensures Stat(b, link).Some?
  {
    FollowAvoidsAbsent(a, target, MaxSymlinkHops - 1, link);
    FollowFrame(a, b, target, MaxSymlinkHops - 1, {link});
    var q := Follow(a, target, MaxSymlinkHops - 1).value;
    FollowMoreFuel(a, target, MaxSymlinkHops - 1, MaxSymlinkHops);
    assert Follow(b, link, MaxSymlinkHops) == Some(q);
    assert q != link;
  }

  /** More fuel never changes a chain that already ends. */
  lemma {:induction false} FollowMoreFuel(fs: FileSystem, p: Path, n: nat, m: nat)
    requires n <= m
    requires Follow(fs, p, n).Some?
    ensures Follow(fs, p, m) == Follow(fs, p, n)
    decreases n
  {
    if p in fs && fs[p].Symlink? {
      FollowMoreFuel(fs, fs[p].target, n - 1, m - 1);
    }
  }
}
